=== FILE: README.md ===
# Sphere-only path tracer, modelled in Dafny

This project models the rendering core of a small Rust path tracer. The scene is a list of spheres, each with a diffuse (Lambertian) or mirror (Metal) material. A pinhole camera shoots one ray per pixel through a viewport. If that ray meets a sphere, the pixel becomes the average of ten jittered samples. Each sample is a ray bounced recursively, up to 50 times. A ray that escapes takes the colour of a white-to-blue sky gradient. A surface attenuates every bounce by its albedo.

The model works over exact `real` numbers. Everything in it is a pure function over immutable datatypes:

- `Vec3`, `Color`, `Ray`, `Camera`, `Sphere`, `HitInfo`, `MaterialKind` and `World` are datatypes;
- the upper end of a `t` window is a `Bound` (a number or infinity);
- the square root is a function parameter `sqrt: real -> real`. Properties that need it to be exact require the ghost predicate `Vectors.IsSqrt(sqrt)`;
- every random number is an input:
  - the unit vector drawn by `random_unit_vector` (as a height plus the cosine and sine of an angle);
  - the draw used by each diffuse bounce;
  - the sub-pixel jitters.

Modules follow the source files:

| module | file | source |
|---|---|---|
| `Vectors`, `Colors` | `vectors.dfy`, `colors.dfy` | vector and colour arithmetic; `color_lerp` |
| `Geometry` | `geometry.dfy` | `reflect`, `near_zero`, `random_in_hemisphere`, `random_unit_vector` |
| `Cameras` | `camera.dfy` | `Camera::new`, `default`, `focal_length`, `set_focal_length` |
| `Rays` | `ray.dfy` | `Ray::new`, `at`, `from_camera` |
| `HitInfos` | `hit_info.dfy` | `HitInfo::new`, `set_face_normal`, the open `t` window |
| `Spheres` | `sphere.dfy` | `Sphere::hit` |
| `Worlds` | `world.dfy` | `World::new`, `add`, `hit` (the closest-hit fold) |
| `MaterialKinds`, `Scattering` | `material_kind.dfy`, `material.dfy` | `MaterialKind::scatter`, the older `LambertianMaterial::scatter` |
| `Tracer` | `tracer.dfy` | `ray_color`, `hit_sphere`, `get_ray_color`, the per-pixel rule of `render_update` |
| `RealArith`, `Wrappers` | `reals.dfy`, `wrappers.dfy` | arithmetic facts, `Option` and `Result` |

`Camera::new` derives `lower_left_corner` from the focal length (src/raytracer/camera.rs:27-28), but `set_focal_length` (src/raytracer/camera.rs:39-41) does not recompute it. The model follows the code; see Findings.

## Model

| member | source | states |
|---|---|---|
| Cameras.NewCamera | src/raytracer/camera.rs:19-37 | The origin and focal length are stored as given. `horizontal` is (2·ar, 0, 0) and `vertical` is (0, 2, 0). The lower-left corner is origin − horizontal/2 − vertical/2 − (0, 0, f), which is (o.x − ar, o.y − 1, o.z − f); the camera is consistent. |
| Cameras.DefaultCamera | src/raytracer/camera.rs:12-16 | The default camera sits at the world origin with focal length 1, horizontal span 2·16/9 and vertical span (0, 2, 0). Its lower-left corner is (−16/9, −1, −1), and the camera is consistent. |
| Cameras.FocalLength | src/raytracer/camera.rs:47-49 | For a consistent camera whose spans lie in the image plane, the focal length is how far the viewport lies in front of the origin along −z. |
| Cameras.SetFocalLength | src/raytracer/camera.rs:39-49 | Afterwards `focal_length()` returns the new value. Origin, lower-left corner, horizontal and vertical are unchanged. A consistent camera becomes inconsistent whenever the focal length actually changes. |
| Cameras.Refocus | src/raytracer/camera.rs:19-41 | Corrected setter: sets the focal length and keeps origin and spans. The camera is consistent again, and the corner moves along −z by the change in focal length. |
| Cameras.RefocusMatchesNew | src/raytracer/camera.rs:19-41 | Refocusing a freshly built camera gives the camera built with the new focal length. |
| Rays.NewRay | src/raytracer/ray.rs:11-13 | Origin and direction are stored unchanged. |
| Rays.At | src/raytracer/ray.rs:15-17 | `at(t) = origin + t·direction`. Its properties are stated by Rays.AtAffine. |
| Rays.AtAffine | src/raytracer/ray.rs:15-17 | `at(0)` is the origin. `at(s + t) = at(s) + t·direction`. Componentwise, `at(t) = origin + t·direction`. |
| Rays.RayTestValues | src/raytracer/ray.rs:34-59 | The values asserted by the two unit tests hold. |
| Rays.FromCamera | src/raytracer/ray.rs:19-24 | The primary ray starts at the camera's origin. |
| Rays.FromCameraDirection | src/raytracer/ray.rs:19-24 | For `Camera::new(o, ar, f)` the ray through (u, v) has direction (2·ar·u − ar, 2v − 1, −f), for every u and v, without clamping. |
| Rays.ViewportCornerAndCentre | src/raytracer/ray.rs:19-24 | (0, 0) looks along (−ar, −1, −f); (0.5, 0.5) looks along (0, 0, −f). |
| Rays.SetFocalLengthKeepsRays | src/raytracer/camera.rs:39-41 | As written, changing the focal length leaves every primary ray exactly as it was. |
| Rays.SetFocalLengthCounterexample | src/raytracer/camera.rs:39-41 | The default camera set to focal length 1.1 still sends its centre ray along (0, 0, −1). A camera built with 1.1 sends it along (0, 0, −1.1). |
| Rays.RefocusMovesRays | src/raytracer/camera.rs:39-41 | With the corrected setter, the ray through (u, v) is the ray of a camera built with the new focal length. |
| HitInfos.NewHitInfo | src/raytracer/hit_info.rs:37-46 | `front_face` is false. hit, t, p, normal and material are stored as given. |
| HitInfos.SetFaceNormal | src/raytracer/hit_info.rs:48-55 | `front_face` holds iff d·n < 0. The stored normal is n on a front face and −n otherwise, grazing rays (d·n = 0) included. It has n's squared length, and never points with the ray (normal·d ≤ 0). hit, t, p and material are unchanged. |
| HitInfos.FaceNormalAgainstRay | src/raytracer/hit_info.rs:48-55 | Unless the ray grazes the surface, the stored normal points strictly against it. It is the only one of n and −n that does. |
| HitInfos.FlippedOutward | src/raytracer/hit_info.rs:48-55 | Passing −n instead of n leaves the stored normal the same and flips `front_face`, unless the ray grazes the surface. |
| Spheres.Hit | src/raytracer/sphere.rs:25-65 | A negative discriminant gives no hit. A returned hit lies strictly inside (t_min, t_max), has the hit flag set, has p = at(t) and the sphere's material, and has a normal that does not point with the ray. |
| Spheres.SurfaceEquation | src/raytracer/sphere.rs:31-35 | at(t) lies on the sphere iff a·t² + b·t = −c for the coefficients a, b and c computed by `hit`. |
| Spheres.SphereOfEquation | src/raytracer/sphere.rs:31-35 | For any centre and any radius, 0 included, at(t) lies on the sphere iff a·t² + b·t = −c. |
| Spheres.RootsOnSurface | src/raytracer/sphere.rs:31-53 | For a non-negative discriminant, both roots (−b ∓ √disc)/2a lie on the sphere, the first is no larger, and every point of the ray on the sphere is one of them. |
| Spheres.OutwardIsUnit | src/raytracer/sphere.rs:45 | At a point on the sphere, (p − center)/radius has length 1. |
| Spheres.HitOnSurface | src/raytracer/sphere.rs:41-62 | A returned hit point lies on the sphere and carries a unit normal. |
| Spheres.HitIsNearest | src/raytracer/sphere.rs:41-62 | Trying the smaller root first makes the returned t no larger than any t in the window where the ray meets the sphere. |
| Spheres.HitIffRootInWindow | src/raytracer/sphere.rs:37-64 | For a non-zero direction, `hit` returns something iff the ray meets the sphere at some t inside the window. |
| Spheres.Narrowed | src/raytracer/sphere.rs:41-64 | Lowering t_max never creates a hit. A hit below the new bound is returned unchanged; any other hit is lost. |
| Spheres.LeavingRayMisses | src/raytracer/sphere.rs:31-64 | A ray that starts on the surface and heads outward gets no hit from that sphere for any t_min ≥ 0. |
| Spheres.NegatedRadius | src/raytracer/sphere.rs:45-48 | Negating the radius keeps hit or miss, t and p. The geometric normal turns round; unless the ray grazes the surface, the stored normal is the same and `front_face` flips. |
| Spheres.InvertedRecord | src/raytracer/sphere.rs:43-48 | The record built for a given root with the negated radius has the same t, p and material and the opposite geometric normal. |
| Worlds.NewWorld | src/raytracer/world.rs:16-18 | The new world has no objects. |
| Worlds.AddObject | src/raytracer/world.rs:20-22 | The object is appended at the end; earlier objects keep their places. |
| Worlds.Scan | src/raytracer/world.rs:25-37 | The loop over the objects ends with its starting record, or with a hit whose t lies inside the window it started with. Its full invariant is Worlds.ScanFindsFirstNearest. |
| Worlds.Hit | src/raytracer/world.rs:24-44 | A returned record has the hit flag set and a t inside the window. An empty world returns None. Worlds.HitIsFirstNearest states which record it is. |
| Worlds.ScanFindsFirstNearest | src/raytracer/world.rs:25-37 | Loop invariant of the narrowing fold. If no object hits in the window, the loop keeps its starting record. Otherwise it ends with the hit of an object i: earlier objects miss or hit strictly farther, later ones miss or hit no nearer. |
| Worlds.ShiftPastHit | src/raytracer/world.rs:32-37 | One loop step: a hit lowers `closest_so_far` to its t. If nothing after it hits below that, it is the first nearest; otherwise the first nearest of the rest is. |
| Worlds.HitIsFirstNearest | src/raytracer/world.rs:24-44 | `hit` returns None iff no object, asked alone, hits in the window. A returned hit lies in the window, has the hit flag set, and is the first object's hit among the nearest, so ties go to the earlier object. |
| Worlds.EmptyWorldMisses | src/raytracer/world.rs:24-44 | An empty world is never hit. |
| Worlds.HitMaterialInScene | src/raytracer/world.rs:32-37 | A returned hit carries the material of one of the world's objects. |
| Worlds.HitNormalIsUnit | src/raytracer/world.rs:24-44 | For an exact square root, a returned hit carries a unit normal, and its point lies on the surface of one of the world's objects. |
| Worlds.HitIsNearestSurfacePoint | src/raytracer/world.rs:24-44 | For a non-zero direction, if the ray meets any sphere at some t in the window, `hit` returns a hit no farther than t. |
| Geometry.Reflect | src/raytracer/geometry.rs:16-18 | `reflect(v, n) = v − 2(v·n)n`. Its properties are stated by Geometry.ReflectFlipsSide, Geometry.ReflectInvolution and Geometry.ReflectPreservesLength. |
| Geometry.ReflectFlipsSide | src/raytracer/geometry.rs:16-18 | For a unit n, reflect(v, n)·n = −(v·n). |
| Geometry.ReflectInvolution | src/raytracer/geometry.rs:16-18 | For a unit n, reflecting twice gives v back. |
| Geometry.ReflectPreservesLength | src/raytracer/geometry.rs:16-18 | For a unit n, reflection preserves v·v. |
| Geometry.RandomInHemisphere | src/raytracer/geometry.rs:6-14 | The result is the sample s or −s, and it is s exactly when s·n > 0. result·n ≥ 0, and the result has the sample's length. |
| Geometry.NearZero | src/raytracer/geometry.rs:27-31 | Every component is below 1e-8 in absolute value. Its properties are stated by Geometry.NearZeroIsShort, Geometry.UnitNotNearZero and Geometry.NearZeroProjection. |
| Geometry.NearZeroIsShort | src/raytracer/geometry.rs:27-31 | A vector whose components are all below 1e-8 in absolute value has squared length below 3·10⁻¹⁶. |
| Geometry.UnitNotNearZero | src/raytracer/geometry.rs:27-31 | A unit vector is never near zero. |
| Geometry.NearZeroProjection | src/raytracer/geometry.rs:27-31 | A near-zero vector has projection below 3·10⁻⁸ on any vector of length at most 1. |
| Geometry.RandomUnitVector | src/raytracer/geometry.rs:20-25 | The vector (r·cos a, r·sin a, z) with r = √(1 − z²), for the draw of z and of the angle a. Geometry.RandomUnitVectorIsUnit proves it is a unit vector. |
| Geometry.RandomUnitVectorIsUnit | src/raytracer/geometry.rs:20-25 | For z in [−1, 1) and cos² + sin² = 1, the vector (r·cos, r·sin, z) with r = √(1 − z²) has length 1. |
| Vectors.Normalize | src/main.rs:38 | v scaled by 1/length. Its properties are stated by Vectors.NormalizeIsUnit and Vectors.NormalizeKeepsSide. |
| Vectors.NormalizeIsUnit | src/main.rs:38 | For a non-zero length, `normalize` gives a unit vector, namely v scaled by 1/length. |
| Vectors.NormalizeKeepsSide | src/raytracer/material.rs:80 | Normalising does not change the sign of the projection on any vector. |
| Scattering.ScatterRay | src/raytracer/material.rs:66-86 | Both kinds attenuate by their albedo and start the scattered ray at the hit point, even when Metal does not scatter. Lambertian always scatters. Metal scatters iff the reflected direction has positive projection on the normal. |
| Scattering.DiffuseLeavesSurface | src/raytracer/material.rs:69-73 | For a unit normal, normal + hemisphere sample is never near zero, so the fallback to the normal never fires. The direction has projection at least 1 on the normal. |
| Scattering.LambertianScatters | src/raytracer/material.rs:68-78 | For a unit normal, a diffuse surface always scatters, with its albedo, strictly into the normal's side. |
| Scattering.MetalScatters | src/raytracer/material.rs:79-84 | For a unit normal, Metal scatters iff the incoming direction has negative projection on the normal. For a non-zero incoming direction, the scattered direction is a unit vector. Reflecting it back gives the normalised incoming direction. |
| Scattering.MetalAbsorbsOnlyGrazing | src/raytracer/material.rs:79-84 | When the normal faces the ray, as every hit record's does, Metal fails to scatter only for a ray tangent to the surface. |
| Scattering.LegacyLambertianScatter | src/raytracer/material.rs:26-38 | The older diffuse material returns its albedo and starts the ray at the hit point. |
| Scattering.LegacyOfTurnedDraw | src/raytracer/material.rs:26-78 | For every draw, the current diffuse bounce equals the older one fed the draw turned into the normal's hemisphere. The older bounce goes along normal + draw, or along the normal when that sum is near zero. |
| Scattering.LegacyNotIntoSurface | src/raytracer/material.rs:28-32 | For a unit normal and a unit draw, the older bounce never heads into the surface: its direction has projection at least 0 on the normal. |
| Scattering.LegacyAgreesAboveSurface | src/raytracer/material.rs:26-78 | When the draw already lies on the normal's side, the older and the current diffuse bounce give the same colour and ray. |
| Colors.ColorLerp | src/main.rs:19-25 | `a·(1 − t) + b·t` on each of the four channels. Its properties are stated by Colors.LerpEndpoints, Colors.LerpOpaque and Colors.LerpInUnit. |
| Colors.LerpEndpoints | src/main.rs:19-25 | `color_lerp(a, b, 0) = a` and `color_lerp(a, b, 1) = b` on all four channels. |
| Colors.LerpOpaque | src/main.rs:19-25 | Blending two opaque colours gives an opaque colour. |
| Colors.LerpInUnit | src/main.rs:19-25 | Blending colours with r, g, b in [0, 1] by a t in [0, 1] stays in [0, 1]. |
| Colors.AttenuateInUnit | src/main.rs:83-90 | Attenuating a colour in [0, 1] by an attenuation in [0, 1] stays in [0, 1]. |
| Tracer.RayColor | src/main.rs:37-44 | The sky colour is always opaque. Tracer.SkyInRange and Tracer.SkyZenithAndNadir state its range and its two ends. |
| Tracer.SkyInRange | src/main.rs:37-44 | The sky colour is opaque, with r, g and b in [0, 1]. |
| Tracer.SkyZenithAndNadir | src/main.rs:37-44 | A ray straight up gets (0.5, 0.7, 1, 1) and a ray straight down gets (1, 1, 1, 1), whatever the direction's length. |
| Tracer.HitSphere | src/main.rs:48-59 | An error can only come for a ray that starts outside the sphere: c = (o − center)·(o − center) − r² is then positive. |
| Tracer.HitSphereIsNearestRoot | src/main.rs:48-59 | For any radius, 0 included, `hit_sphere` fails iff the ray's line meets the sphere nowhere. Otherwise it returns a point of the ray on the sphere, no farther than any other such point, with no window. |
| Tracer.SameQuadratic | src/main.rs:48-59 | `hit_sphere` fails iff `Sphere::hit`'s discriminant is negative, and returns that method's smaller root. |
| Tracer.GetRayColor | src/main.rs:76-131 | Every traced colour is opaque, at any depth, and depth 0 gives opaque black. |
| Tracer.GetRayColorInRange | src/main.rs:76-131 | With all albedos in [0, 1], every traced colour has r, g and b in [0, 1], at any depth. |
| Tracer.EmptySceneShowsSky | src/main.rs:76-131 | In an empty scene, every ray with depth left gets the sky colour. |
| Tracer.LastBounceIsBlack | src/main.rs:77-93 | With depth 1, a ray that hits anything is black: it is absorbed, or its bounce has no depth left. |
| Tracer.DiffuseHitAttenuates | src/main.rs:81-90 | For an exact square root, a hit on a diffuse surface always bounces into the normal's side. Its colour is the albedo times the bounce's colour one level down. |
| Tracer.AddRgbBounds | src/main.rs:154-166 | Adding n colours in [0, 1] onto channels in [0, k] gives channels in [0, k + n]. |
| Tracer.AddRgbLast | src/main.rs:154-166 | Summing colours from the front equals summing all but the last and then adding the last; alpha stays that of the start colour. |
| Tracer.AddRgbIsTotal | src/main.rs:154-166 | The running sum of the samples adds their red, green and blue totals (summed from the back) onto the start colour and keeps its alpha. |
| Tracer.RgbTotalConstant | src/main.rs:154-166 | n colours that share the red, green and blue of k total n times k's channels. |
| Tracer.SampleColors | src/main.rs:155-163 | Sample i is the jittered ray i traced to depth 50 with draw stream i. |
| Tracer.PixelColor | src/main.rs:133-187 | The colour of pixel (x, y) is always opaque, and it is the sky of the centre ray when that ray hits nothing in (0.001, 1000). Tracer.PixelIsAverage states the other branch. |
| Tracer.PixelInRange | src/main.rs:141-186 | With all albedos in [0, 1], every pixel is opaque, with r, g and b in [0, 1]. |
| Tracer.EmptyScenePixel | src/main.rs:141-186 | In an empty scene, a pixel is the sky colour of the unjittered ray through it. |
| Tracer.PixelIsAverage | src/main.rs:141-166 | When the centre ray hits something in (0.001, 1000), the pixel's red, green and blue are the totals of its ten samples divided by ten, and it is opaque. |
| Tracer.PixelOfEqualSamples | src/main.rs:141-166 | When the centre ray hits and all ten samples share k's red, green and blue, the pixel is k made opaque. |
| Tracer.ScreenCorners | src/main.rs:136-141 | Pixel (0, 0) looks at the viewport's lower-left corner (−ar, −1, −f). Pixel (1599, 899) looks at its upper-right corner (ar, 1, −f). |

## Left out

- The event loop, window configuration, egui panel, FPS text, texture upload and `Image::set_pixel` (src/main.rs:27-35, 192-358): these are UI and I/O. The per-pixel rule is modelled as a function of the pixel index and the random inputs.
- Keyboard camera control (src/main.rs:315-348): host glue. The WASD keys move `origin` without recomputing the lower-left corner, which tilts the view instead of moving it. This is the same stale-state effect as the focal-length finding, and it is not modelled separately.
- `f32` rounding, NaN and `INFINITY`: the model is over exact reals, and `INFINITY` as an upper bound is the `Infinity` case of `Bound`.
- `sqrt`, `normalize`, `sin` and `cos`: `sqrt` is a parameter. For the zero vector, `normalize` returns the vector unchanged, where the maths library gives NaN components. Angles are represented by their cosine and sine.
- The random number generator (`RandomRange`, `random`, and the unused `random_in_unit_sphere`, src/main.rs:61-74): replaced by explicit inputs. Statistical convergence is not modelled.
- The `Hittable` and `Material` traits and their boxed trait objects: the world is a `seq<Sphere>` (spheres are the only objects), and `LambertianMaterial` is the only `Material`.
- `Sphere::new`, `LambertianMaterial::new` and the struct literals: these are the datatype constructors.
- `Camera::focal_length_mut` (src/raytracer/camera.rs:43-45): it hands out a mutable reference. Writing through it has the effect of `SetFocalLength`.
- Commented-out code: the `Vector<T>` layer of geometry.rs, `MetalMaterial`, and the old blocks in main.rs.
- Spheres.Hit: the radius excludes 0, because the source's normal divides by the radius and gives NaN.
- Spheres.Hit: a zero ray direction gives no hit. In the source, both roots are then NaN or infinite, and the strict window comparisons reject them.
- Tracer.HitSphere: requires a non-zero ray direction, because for a zero direction the source divides by zero and returns a NaN or infinite root that a real cannot represent.
- Tracer.GetRayColor: the depth is a `u8` in the source and a `nat` here. Starting at 50 and decreasing, it never wraps.
- Tracer.PixelColor: `x` and `y` are any naturals. The loops over 0..1600 × 0..900 that call it are left out.

## Findings

| source | as written | input that shows it | evidently intended | confidence | as-written member | corrected member |
|---|---|---|---|---|---|---|
| src/raytracer/camera.rs:39-41 | `set_focal_length` stores the new focal length but does not recompute `lower_left_corner`, which `Camera::new` derives from it. Rays are built from the corner, so the Q/E zoom keys (src/main.rs:338-348) change no ray. | `Camera::default()` then `set_focal_length(1.1)`: the ray through (0.5, 0.5) still has direction (0, 0, −1). | The viewport moves to depth 1.1 and the centre ray has direction (0, 0, −1.1), as with `Camera::new(origin, 16/9, 1.1)`. | high, not executed | Cameras.SetFocalLength, Rays.SetFocalLengthKeepsRays, Rays.SetFocalLengthCounterexample | Cameras.Refocus, Cameras.RefocusMatchesNew, Rays.RefocusMovesRays |

=== FILE: camera.dfy ===
/** The pinhole camera: an eye point and a viewport two units high, centred on
    the -z axis at the focal distance. */
module Cameras {
  import opened Vectors

  datatype Camera = Camera(
    origin: Vec3,
    lowerLeftCorner: Vec3,
    horizontal: Vec3,
    vertical: Vec3,
    focalLength: real)

  /** The viewport's lower-left corner for a camera at `origin` with the given
      viewport spans and focal length: half a span left and down, and the focal
      length forward along -z. */
  function CornerFor(origin: Vec3, horizontal: Vec3, vertical: Vec3, focalLength: real): Vec3 {
    Sub(Sub(Sub(origin, Div(horizontal, 2.0)), Div(vertical, 2.0)), Vec3(0.0, 0.0, focalLength))
  }

  /** The lower-left corner agrees with the camera's origin, spans and focal
      length, as `Camera::new` leaves it. */
  predicate Consistent(c: Camera) {
    c.lowerLeftCorner == CornerFor(c.origin, c.horizontal, c.vertical, c.focalLength)
  }

  /** `Camera::new(origin, aspect_ratio, focal_length)`. */
  function NewCamera(origin: Vec3, aspectRatio: real, focalLength: real): (c: Camera)
    ensures Consistent(c)
    ensures c.origin == origin && c.focalLength == focalLength
    ensures c.horizontal == Vec3(2.0 * aspectRatio, 0.0, 0.0)
    ensures c.vertical == Vec3(0.0, 2.0, 0.0)
    ensures c.lowerLeftCorner
         == Vec3(origin.x - aspectRatio, origin.y - 1.0, origin.z - focalLength)
  {
    // The viewport is 2 high and `aspectRatio * 2` wide.
    var horizontal := Vec3(aspectRatio * 2.0, 0.0, 0.0);
    var vertical := Vec3(0.0, 2.0, 0.0);
    Camera(origin, CornerFor(origin, horizontal, vertical, focalLength), horizontal, vertical, focalLength)
  }

  /** The default aspect ratio, 16:9. */
  const DefaultAspectRatio: real := 16.0 / 9.0

  /** `Camera::default()`: at the world origin, 16:9, focal length 1. */
  function DefaultCamera(): (c: Camera)
    ensures c.origin == Zero && c.focalLength == 1.0
    ensures c.horizontal == Vec3(2.0 * DefaultAspectRatio, 0.0, 0.0)
    ensures c.vertical == Vec3(0.0, 2.0, 0.0) && Consistent(c)
    ensures c.lowerLeftCorner == Vec3(-DefaultAspectRatio, -1.0, -1.0)
  {
    NewCamera(Zero, DefaultAspectRatio, 1.0)
  }

  /** `Camera::focal_length`. While the camera is consistent and its spans lie in
      the image plane, this is how far the viewport lies in front of the origin. */
  function FocalLength(c: Camera): (f: real)
    ensures Consistent(c) && c.horizontal.z == 0.0 && c.vertical.z == 0.0 ==>
      f == c.origin.z - c.lowerLeftCorner.z
  {
    c.focalLength
  }

  /** `Camera::set_focal_length` as written: only the stored focal length changes;
      the lower-left corner derived from it is left as it was. */
  function SetFocalLength(c: Camera, focalLength: real): (r: Camera)
    ensures FocalLength(r) == focalLength
    ensures r.origin == c.origin && r.lowerLeftCorner == c.lowerLeftCorner
    ensures r.horizontal == c.horizontal && r.vertical == c.vertical
    ensures Consistent(c) && focalLength != c.focalLength ==> !Consistent(r)
  {
    c.(focalLength := focalLength)
  }

  /** The focal-length setter as evidently intended: the lower-left corner is
      recomputed for the new focal length, so that the viewport moves. */
  function Refocus(c: Camera, focalLength: real): (r: Camera)
    ensures FocalLength(r) == focalLength
    ensures r.origin == c.origin && r.horizontal == c.horizontal && r.vertical == c.vertical
    ensures Consistent(r)
    ensures Consistent(c) ==>
      r.lowerLeftCorner == Sub(c.lowerLeftCorner, Vec3(0.0, 0.0, focalLength - c.focalLength))
  {
    c.(lowerLeftCorner := CornerFor(c.origin, c.horizontal, c.vertical, focalLength),
       focalLength := focalLength)
  }

  /** Refocusing a freshly built camera gives the camera built with the new focal
      length. */
  lemma RefocusMatchesNew(origin: Vec3, aspectRatio: real, f0: real, f: real)
    ensures Refocus(NewCamera(origin, aspectRatio, f0), f) == NewCamera(origin, aspectRatio, f)
  {
  }
}

=== FILE: colors.dfy ===
/** RGBA colours with real channels (the renderer's f32 `Color`), the blend it
    uses for the sky, and the componentwise attenuation of a bounce. */
module Colors {
  import opened RealArith

  datatype Color = Color(r: real, g: real, b: real, a: real)

  /** Opaque black, returned when a path is absorbed or runs out of depth. */
  const Black := Color(0.0, 0.0, 0.0, 1.0)
  const White := Color(1.0, 1.0, 1.0, 1.0)
  /** The colour at the top of the sky gradient. */
  const SkyBlue := Color(0.5, 0.7, 1.0, 1.0)

  /** `x` lies in the closed interval [0, 1]. */
  predicate InUnit(x: real) {
    0.0 <= x <= 1.0
  }

  /** The red, green and blue channels all lie in [0, 1]. */
  predicate RgbInUnit(c: Color) {
    InUnit(c.r) && InUnit(c.g) && InUnit(c.b)
  }

  function Mix(x: real, y: real, t: real): real {
    x * (1.0 - t) + y * t
  }

  /** `color_lerp`: every channel, alpha included, blended as `a * (1 - t) + b * t`. */
  function ColorLerp(a: Color, b: Color, t: real): Color {
    Color(Mix(a.r, b.r, t), Mix(a.g, b.g, t), Mix(a.b, b.b, t), Mix(a.a, b.a, t))
  }

  /** The colour carried back along a scattered ray, filtered channel by channel by
      the surface's attenuation; the result is always opaque. */
  function Attenuate(c: Color, attenuation: Color): Color {
    Color(c.r * attenuation.r, c.g * attenuation.g, c.b * attenuation.b, 1.0)
  }

  /** The blend starts at its first colour and ends at its second. */
  lemma LerpEndpoints(a: Color, b: Color)
    ensures ColorLerp(a, b, 0.0) == a
    ensures ColorLerp(a, b, 1.0) == b
  {
  }

  /** Blending two opaque colours yields an opaque colour, for every `t`. */
  lemma LerpOpaque(a: Color, b: Color, t: real)
    requires a.a == 1.0 && b.a == 1.0
    ensures ColorLerp(a, b, t).a == 1.0
  {
  }

  /** For `t` in [0, 1], blending two colours whose channels lie in [0, 1] stays in
      [0, 1] on every channel. */
  lemma LerpInUnit(a: Color, b: Color, t: real)
    requires RgbInUnit(a) && RgbInUnit(b) && InUnit(t)
    ensures RgbInUnit(ColorLerp(a, b, t))
  {
    InterpolationInUnit(a.r, b.r, t);
    InterpolationInUnit(a.g, b.g, t);
    InterpolationInUnit(a.b, b.b, t);
  }

  /** Attenuating by a colour of [0, 1] channels keeps [0, 1] channels. */
  lemma AttenuateInUnit(c: Color, attenuation: Color)
    requires RgbInUnit(c) && RgbInUnit(attenuation)
    ensures RgbInUnit(Attenuate(c, attenuation))
  {
    ProductInUnit(c.r, attenuation.r);
    ProductInUnit(c.g, attenuation.g);
    ProductInUnit(c.b, attenuation.b);
  }
}

=== FILE: geometry.dfy ===
/** The free geometric helpers of the renderer: mirror reflection, the
    near-zero test, and the two random-direction generators with their random
    draws passed in as data. */
module Geometry {
  import opened RealArith
  import opened Vectors

  /** A vector of length 1. */
  predicate IsUnit(n: Vec3) {
    Dot(n, n) == 1.0
  }

  /** `reflect(v, n) = v - 2 (v . n) n`: the mirror image of `v` in the plane with
      normal `n`. */
  function Reflect(v: Vec3, n: Vec3): Vec3 {
    Sub(v, Scale(n, 2.0 * Dot(v, n)))
  }

  /** About a unit normal, the reflection lies on the other side of the surface,
      at the same angle. */
  lemma ReflectFlipsSide(v: Vec3, n: Vec3)
    requires IsUnit(n)
    ensures Dot(Reflect(v, n), n) == -Dot(v, n)
  {
    var k := 2.0 * Dot(v, n);
    DotSubLeft(v, Scale(n, k), n);
    DotScaleLeft(n, k, n);
  }

  /** Reflecting twice in the same unit normal gives back the original vector. */
  lemma ReflectInvolution(v: Vec3, n: Vec3)
    requires IsUnit(n)
    ensures Reflect(Reflect(v, n), n) == v
  {
    ReflectFlipsSide(v, n);
  }

  /** Reflection in a unit normal preserves length. */
  lemma ReflectPreservesLength(v: Vec3, n: Vec3)
    requires IsUnit(n)
    ensures Dot(Reflect(v, n), Reflect(v, n)) == Dot(v, v)
  {
    var d := Dot(v, n);
    var m := Scale(n, 2.0 * d);
    var r := Reflect(v, n);
    ReflectFlipsSide(v, n);
    DotSubLeft(v, m, r);
    DotScaleLeft(n, 2.0 * d, r);
    DotSymmetric(n, r);
    DotSubLeft(v, m, v);
    DotScaleLeft(n, 2.0 * d, v);
    DotSymmetric(n, v);
    assert Dot(r, r) == Dot(v, r) - 2.0 * d * Dot(n, r);
    assert Dot(v, r) == Dot(v, v) - 2.0 * d * d;
  }

  /** `random_in_hemisphere(normal)`, given the unit-vector draw it makes: the draw
      is kept when it points to the normal's side and negated otherwise. */
  function RandomInHemisphere(normal: Vec3, sample: Vec3): (r: Vec3)
    ensures r == sample || r == Neg(sample)
    ensures 0.0 < Dot(sample, normal) ==> r == sample
    ensures Dot(sample, normal) <= 0.0 ==> r == Neg(sample)
    ensures 0.0 <= Dot(r, normal)
    ensures Dot(r, r) == Dot(sample, sample)
  {
    DotNegLeft(sample, normal);
    if Dot(sample, normal) > 0.0 then sample else Neg(sample)
  }

  /** The per-component tolerance of `near_zero`, `1e-8`. */
  const NearZeroTolerance: real := 0.00000001

  function Abs(x: real): real {
    if x < 0.0 then -x else x
  }

  /** `near_zero(v)`: every component is below the tolerance in absolute value. */
  predicate NearZero(v: Vec3) {
    Abs(v.x) < NearZeroTolerance && Abs(v.y) < NearZeroTolerance && Abs(v.z) < NearZeroTolerance
  }

  /** A near-zero vector is short: its squared length is below three squared
      tolerances. */
  lemma NearZeroIsShort(v: Vec3)
    requires NearZero(v)
    ensures Dot(v, v) < 3.0 * NearZeroTolerance * NearZeroTolerance
  {
    SmallSquares(v.x, v.y, v.z, Dot(v, v), NearZeroTolerance);
  }

  lemma SmallSquares(x: real, y: real, z: real, d: real, e: real)
    requires d == x * x + y * y + z * z
    requires -e < x < e && -e < y < e && -e < z < e
    ensures d < 3.0 * e * e
  {
    SmallSquare(x, e);
    SmallSquare(y, e);
    SmallSquare(z, e);
  }

  /** A unit vector is never near zero. */
  lemma UnitNotNearZero(v: Vec3)
    requires IsUnit(v)
    ensures !NearZero(v)
  {
    if NearZero(v) {
      NearZeroIsShort(v);
    }
  }

  /** A near-zero vector has a tiny projection on any vector of length at most 1:
      below three tolerances. */
  lemma NearZeroProjection(v: Vec3, n: Vec3)
    requires NearZero(v) && !(1.0 < Dot(n, n))
    ensures Dot(v, n) < 3.0 * NearZeroTolerance
  {
    ShortComponentsBounded(n);
    SmallProduct(v.x, n.x, NearZeroTolerance);
    SmallProduct(v.y, n.y, NearZeroTolerance);
    SmallProduct(v.z, n.z, NearZeroTolerance);
  }

  /** The random draws behind `random_unit_vector`: the height `z`, drawn from
      [-1, 1), and the cosine and sine of the angle, drawn from [0, 2 pi). */
  datatype UnitDraw = UnitDraw(z: real, cosAngle: real, sinAngle: real)

  /** A draw the generator can produce. */
  predicate ValidDraw(d: UnitDraw) {
    -1.0 <= d.z < 1.0 && d.cosAngle * d.cosAngle + d.sinAngle * d.sinAngle == 1.0
  }

  /** `random_unit_vector()` for the given draw: `(r cos a, r sin a, z)` with
      `r = sqrt(1 - z^2)`. */
  function RandomUnitVector(d: UnitDraw, sqrt: real -> real): Vec3 {
    var r := sqrt(1.0 - d.z * d.z);
    Vec3(r * d.cosAngle, r * d.sinAngle, d.z)
  }

  /** Every draw the generator can produce gives a unit vector. */
  lemma RandomUnitVectorIsUnit(d: UnitDraw, sqrt: real -> real)
    requires IsSqrt(sqrt) && ValidDraw(d)
    ensures IsUnit(RandomUnitVector(d, sqrt))
  {
    UnitIntervalSquare(d.z);
    var q := 1.0 - d.z * d.z;
    var r := sqrt(q);
    assert r * r == q;
    PolarUnit(r, d.cosAngle, d.sinAngle, d.z, q);
  }

  lemma PolarUnit(r: real, c: real, s: real, z: real, q: real)
    requires q == 1.0 - z * z && r * r == q && c * c + s * s == 1.0
    ensures (r * c) * (r * c) + (r * s) * (r * s) + z * z == 1.0
  {
    assert (r * c) * (r * c) + (r * s) * (r * s) == (r * r) * (c * c + s * s);
  }
}

=== FILE: hit_info.dfy ===
/** The record of a ray hitting a surface, the open `t` window a hit must fall in,
    and the orientation of the stored normal against the incoming ray. */
module HitInfos {
  import opened Vectors
  import opened MaterialKinds

  /** The upper end of a `t` window: a number, or `INFINITY`. */
  datatype Bound = Finite(value: real) | Infinity

  /** `t` lies strictly below the bound. */
  predicate Below(t: real, bound: Bound) {
    match bound
    case Finite(v) => t < v
    case Infinity => true
  }

  /** `t < t_max && t > t_min`: the open window every `Hittable::hit` accepts. */
  predicate InWindow(t: real, tMin: real, tMax: Bound) {
    Below(t, tMax) && t > tMin
  }

  /** The bound `inner` is no larger than `outer`, so its window lies inside. */
  predicate AtMost(inner: Bound, outer: Bound) {
    match outer
    case Infinity => true
    case Finite(v) => inner.Finite? && inner.value <= v
  }

  datatype HitInfo = HitInfo(
    hit: bool,
    t: real,
    p: Vec3,
    normal: Vec3,
    frontFace: bool,
    material: MaterialKind)

  /** `HitInfo::new`: every field as given, and `front_face` false. */
  function NewHitInfo(hit: bool, t: real, p: Vec3, normal: Vec3, material: MaterialKind): (h: HitInfo)
    ensures !h.frontFace
    ensures h.hit == hit && h.t == t && h.p == p && h.normal == normal && h.material == material
  {
    HitInfo(hit, t, p, normal, false, material)
  }

  /** `HitInfo::set_face_normal(direction, outward)`: records whether the ray meets
      the outside of the surface and stores the normal turned to face the ray. */
  function SetFaceNormal(h: HitInfo, direction: Vec3, outward: Vec3): (r: HitInfo)
    ensures r.frontFace <==> Dot(direction, outward) < 0.0
    ensures r.normal == outward || r.normal == Neg(outward)
    ensures r.frontFace ==> r.normal == outward
    ensures !r.frontFace ==> r.normal == Neg(outward)
    ensures Dot(r.normal, direction) <= 0.0
    ensures Dot(r.normal, r.normal) == Dot(outward, outward)
    ensures r.hit == h.hit && r.t == h.t && r.p == h.p && r.material == h.material
  {
    DotSymmetric(direction, outward);
    DotNegLeft(outward, direction);
    DotNegLeft(outward, Neg(outward));
    var front := Dot(direction, outward) < 0.0;
    h.(frontFace := front, normal := if front then outward else Neg(outward))
  }

  /** Unless the ray grazes the surface, the stored normal points strictly against
      it, and it is the only one of `outward` and `-outward` that does. */
  lemma FaceNormalAgainstRay(h: HitInfo, direction: Vec3, outward: Vec3)
    requires Dot(direction, outward) != 0.0
    ensures Dot(SetFaceNormal(h, direction, outward).normal, direction) < 0.0
    ensures forall m :: (m == outward || m == Neg(outward)) && Dot(m, direction) < 0.0
                        ==> m == SetFaceNormal(h, direction, outward).normal
  {
    DotSymmetric(direction, outward);
    DotNegLeft(outward, direction);
  }

  /** Turning the outward normal round leaves the stored normal as it was and
      flips `front_face`, unless the ray grazes the surface. */
  lemma FlippedOutward(h: HitInfo, direction: Vec3, outward: Vec3)
    requires Dot(direction, outward) != 0.0
    ensures SetFaceNormal(h, direction, Neg(outward)).normal == SetFaceNormal(h, direction, outward).normal
    ensures SetFaceNormal(h, direction, Neg(outward)).frontFace == !SetFaceNormal(h, direction, outward).frontFace
  {
    DotSymmetric(direction, outward);
    DotSymmetric(direction, Neg(outward));
    DotNegLeft(outward, direction);
    assert Neg(Neg(outward)) == outward;
  }
}

=== FILE: material.dfy ===
/** How a surface sends light on: the scattered ray, its attenuation, and whether
    the surface scatters at all. The random direction a diffuse bounce uses is an
    input: the `random_unit_vector()` draw. */
module Scattering {
  import opened Vectors
  import opened Colors
  import opened Geometry
  import opened Rays
  import opened HitInfos
  import opened MaterialKinds

  /** The `(Color, Ray, bool)` that `MaterialKind::scatter` returns. */
  datatype Scatter = Scatter(attenuation: Color, scattered: Ray, ok: bool)

  /** The diffuse direction: the normal plus the unit draw turned into the
      normal's hemisphere, or the normal itself when that sum is near zero. */
  function DiffuseDirection(normal: Vec3, sample: Vec3): Vec3 {
    var direction := Add(normal, RandomInHemisphere(normal, sample));
    if NearZero(direction) then normal else direction
  }

  /** `MaterialKind::scatter(ray_in, hit_info)`, with `sample` the draw of
      `random_unit_vector()`. Both kinds attenuate by their albedo and scatter from
      the hit point; a diffuse surface always scatters. */
  function ScatterRay(kind: MaterialKind, rayIn: Ray, hit: HitInfo, sample: Vec3, sqrt: real -> real): (r: Scatter)
    ensures r.attenuation == kind.albedo
    ensures r.scattered.origin == hit.p
    ensures kind.Lambertian? ==> r.ok
    ensures kind.Metal? ==> (r.ok <==> 0.0 < Dot(r.scattered.direction, hit.normal))
  {
    match kind
    case Lambertian(albedo) =>
      Scatter(albedo, NewRay(hit.p, DiffuseDirection(hit.normal, sample)), true)
    case Metal(albedo) =>
      var reflected := Reflect(Normalize(rayIn.direction, sqrt), hit.normal);
      var scattered := NewRay(hit.p, reflected);
      Scatter(albedo, scattered, Dot(scattered.direction, hit.normal) > 0.0)
  }

  /** For a unit normal the near-zero fallback of the diffuse bounce never fires:
      the normal plus a draw in its hemisphere has a projection of at least 1 on
      the normal, so the ray leaves on the normal's side. */
  lemma DiffuseLeavesSurface(normal: Vec3, sample: Vec3)
    requires IsUnit(normal)
    ensures !NearZero(Add(normal, RandomInHemisphere(normal, sample)))
    ensures DiffuseDirection(normal, sample) == Add(normal, RandomInHemisphere(normal, sample))
    ensures 1.0 <= Dot(DiffuseDirection(normal, sample), normal)
  {
    var turned := RandomInHemisphere(normal, sample);
    var direction := Add(normal, turned);
    DotAddLeft(normal, turned, normal);
    assert 1.0 <= Dot(direction, normal);
    if NearZero(direction) {
      NearZeroProjection(direction, normal);
      assert false;
    }
  }

  /** A diffuse surface with a unit normal scatters every ray, with its albedo,
      from the hit point into the normal's side. */
  lemma LambertianScatters(albedo: Color, rayIn: Ray, hit: HitInfo, sample: Vec3, sqrt: real -> real)
    requires IsUnit(hit.normal)
    ensures ScatterRay(Lambertian(albedo), rayIn, hit, sample, sqrt).ok
    ensures ScatterRay(Lambertian(albedo), rayIn, hit, sample, sqrt).attenuation == albedo
    ensures 0.0 < Dot(ScatterRay(Lambertian(albedo), rayIn, hit, sample, sqrt).scattered.direction, hit.normal)
  {
    DiffuseLeavesSurface(hit.normal, sample);
  }

  /** A metal surface with a unit normal scatters exactly when the incoming ray
      travels against the normal; the scattered direction is a unit vector for a
      non-zero incoming direction; and mirroring it back gives the normalised
      incoming direction. */
  lemma MetalScatters(albedo: Color, rayIn: Ray, hit: HitInfo, sample: Vec3, sqrt: real -> real)
    requires IsSqrt(sqrt) && IsUnit(hit.normal)
    ensures ScatterRay(Metal(albedo), rayIn, hit, sample, sqrt).ok <==> Dot(rayIn.direction, hit.normal) < 0.0
    ensures Length(rayIn.direction, sqrt) != 0.0 ==>
      IsUnit(ScatterRay(Metal(albedo), rayIn, hit, sample, sqrt).scattered.direction)
    ensures Reflect(ScatterRay(Metal(albedo), rayIn, hit, sample, sqrt).scattered.direction, hit.normal)
         == Normalize(rayIn.direction, sqrt)
  {
    var unit := Normalize(rayIn.direction, sqrt);
    ReflectFlipsSide(unit, hit.normal);
    NormalizeKeepsSide(rayIn.direction, hit.normal, sqrt);
    ReflectInvolution(unit, hit.normal);
    ReflectPreservesLength(unit, hit.normal);
    if Length(rayIn.direction, sqrt) != 0.0 {
      NormalizeIsUnit(rayIn.direction, sqrt);
    }
  }

  /** With the normal turned to face the ray, as every recorded hit has it, a
      metal surface absorbs only rays that graze it. */
  lemma MetalAbsorbsOnlyGrazing(albedo: Color, rayIn: Ray, hit: HitInfo, sample: Vec3, sqrt: real -> real)
    requires IsSqrt(sqrt) && IsUnit(hit.normal) && Dot(hit.normal, rayIn.direction) <= 0.0
    ensures ScatterRay(Metal(albedo), rayIn, hit, sample, sqrt).ok <==> Dot(rayIn.direction, hit.normal) != 0.0
  {
    MetalScatters(albedo, rayIn, hit, sample, sqrt);
    DotSymmetric(hit.normal, rayIn.direction);
  }

  /** `LambertianMaterial::scatter`, the older diffuse material: the normal plus
      the unit draw as it is, without turning it into the normal's hemisphere. */
  function LegacyLambertianScatter(albedo: Color, hit: HitInfo, sample: Vec3): (r: (Color, Ray))
    ensures r.0 == albedo && r.1.origin == hit.p
  {
    var direction := Add(hit.normal, sample);
    (albedo, NewRay(hit.p, if NearZero(direction) then hit.normal else direction))
  }

  /** The current diffuse bounce is the older one fed the draw turned into the
      normal's hemisphere, for every draw. */
  lemma LegacyOfTurnedDraw(albedo: Color, rayIn: Ray, hit: HitInfo, sample: Vec3, sqrt: real -> real)
    ensures LegacyLambertianScatter(albedo, hit, RandomInHemisphere(hit.normal, sample))
         == (ScatterRay(Lambertian(albedo), rayIn, hit, sample, sqrt).attenuation,
             ScatterRay(Lambertian(albedo), rayIn, hit, sample, sqrt).scattered)
  {
  }

  /** With a unit normal and a unit draw the older bounce never heads into the
      surface: the normal plus the draw has projection `1 + s.n`, at least 0 since a
      unit draw has `s.n >= -1`, and the near-zero fallback has projection 1. */
  lemma LegacyNotIntoSurface(albedo: Color, hit: HitInfo, sample: Vec3)
    requires IsUnit(hit.normal) && IsUnit(sample)
    ensures 0.0 <= Dot(LegacyLambertianScatter(albedo, hit, sample).1.direction, hit.normal)
  {
    var n := hit.normal;
    var sum := Add(n, sample);
    DotAddLeft(n, sample, n);
    DotAddLeft(n, sample, sum);
    DotAddLeft(n, sample, sample);
    DotSymmetric(n, sum);
    DotSymmetric(sample, sum);
    DotSymmetric(sample, n);
    DotSelfNonNegative(sum);
    assert Dot(sum, sum) == 2.0 + 2.0 * Dot(sample, n);
  }

  /** The older and the current diffuse bounce agree whenever the draw already lies
      on the normal's side, and the current one then always scatters. */
  lemma LegacyAgreesAboveSurface(albedo: Color, rayIn: Ray, hit: HitInfo, sample: Vec3, sqrt: real -> real)
    requires 0.0 < Dot(sample, hit.normal)
    ensures ScatterRay(Lambertian(albedo), rayIn, hit, sample, sqrt).ok
    ensures LegacyLambertianScatter(albedo, hit, sample)
         == (ScatterRay(Lambertian(albedo), rayIn, hit, sample, sqrt).attenuation,
             ScatterRay(Lambertian(albedo), rayIn, hit, sample, sqrt).scattered)
  {
  }
}

=== FILE: material_kind.dfy ===
/** The closed set of surface materials. */
module MaterialKinds {
  import opened Colors

  /** `MaterialKind`: a diffuse or a mirror surface, each with its albedo. */
  datatype MaterialKind = Lambertian(albedo: Color) | Metal(albedo: Color)
}

=== FILE: ray.dfy ===
/** Rays `origin + t * direction`, and the primary rays the camera shoots through
    its viewport. */
module Rays {
  import opened Vectors
  import opened Cameras

  datatype Ray = Ray(origin: Vec3, direction: Vec3)

  /** `Ray::new`: origin and direction stored as given. */
  function NewRay(origin: Vec3, direction: Vec3): (r: Ray)
    ensures r.origin == origin && r.direction == direction
  {
    Ray(origin, direction)
  }

  /** `Ray::at(t)`: the point reached after travelling `t` directions. */
  function At(ray: Ray, t: real): Vec3 {
    Add(ray.origin, Scale(ray.direction, t))
  }

  /** `at` is affine in `t`: it starts at the origin and moves by one direction per
      unit of `t`. */
  lemma AtAffine(ray: Ray, s: real, t: real)
    ensures At(ray, 0.0) == ray.origin
    ensures At(ray, s + t) == Add(At(ray, s), Scale(ray.direction, t))
    ensures At(ray, t)
         == Vec3(ray.origin.x + t * ray.direction.x, ray.origin.y + t * ray.direction.y,
                 ray.origin.z + t * ray.direction.z)
  {
  }

  /** The values the ray module's unit tests check. */
  lemma RayTestValues()
    ensures NewRay(Vec3(1.0, 2.0, 3.0), Vec3(4.0, 5.0, 6.0)).origin == Vec3(1.0, 2.0, 3.0)
    ensures NewRay(Vec3(1.0, 2.0, 3.0), Vec3(4.0, 5.0, 6.0)).direction == Vec3(4.0, 5.0, 6.0)
    ensures At(Ray(Vec3(2.0, 3.0, 4.0), Vec3(1.0, 0.0, 0.0)), 0.0) == Vec3(2.0, 3.0, 4.0)
    ensures At(Ray(Vec3(2.0, 3.0, 4.0), Vec3(1.0, 0.0, 0.0)), 1.0) == Vec3(3.0, 3.0, 4.0)
    ensures At(Ray(Vec3(2.0, 3.0, 4.0), Vec3(1.0, 0.0, 0.0)), -1.0) == Vec3(1.0, 3.0, 4.0)
    ensures At(Ray(Vec3(2.0, 3.0, 4.0), Vec3(1.0, 0.0, 0.0)), 2.5) == Vec3(4.5, 3.0, 4.0)
  {
  }

  /** `Ray::from_camera(camera, u, v)`: from the eye through the viewport point at
      fractions `u` across and `v` up; `u` and `v` are not clamped. */
  function FromCamera(c: Camera, u: real, v: real): (r: Ray)
    ensures r.origin == c.origin
  {
    NewRay(c.origin, Sub(Add(Add(c.lowerLeftCorner, Scale(c.horizontal, u)), Scale(c.vertical, v)), c.origin))
  }

  /** For a camera built by `Camera::new(o, ar, f)`, the ray through viewport point
      `(u, v)` has direction `(2 ar u - ar, 2 v - 1, -f)`, for any `u` and `v`. */
  lemma FromCameraDirection(origin: Vec3, aspectRatio: real, focalLength: real, u: real, v: real)
    ensures FromCamera(NewCamera(origin, aspectRatio, focalLength), u, v).direction
         == Vec3(2.0 * aspectRatio * u - aspectRatio, 2.0 * v - 1.0, -focalLength)
  {
    var c := NewCamera(origin, aspectRatio, focalLength);
    var h := Scale(c.horizontal, u);
    var w := Scale(c.vertical, v);
    assert h == Vec3(2.0 * aspectRatio * u, 0.0, 0.0);
    assert w == Vec3(0.0, 2.0 * v, 0.0);
    assert FromCamera(c, u, v).direction == Sub(Add(Add(c.lowerLeftCorner, h), w), origin);
  }

  /** The corner `(0, 0)` looks along `(-ar, -1, -f)` and the centre straight down
      the -z axis at the focal distance. */
  lemma ViewportCornerAndCentre(origin: Vec3, aspectRatio: real, focalLength: real)
    ensures FromCamera(NewCamera(origin, aspectRatio, focalLength), 0.0, 0.0).direction
         == Vec3(-aspectRatio, -1.0, -focalLength)
    ensures FromCamera(NewCamera(origin, aspectRatio, focalLength), 0.5, 0.5).direction
         == Vec3(0.0, 0.0, -focalLength)
  {
    FromCameraDirection(origin, aspectRatio, focalLength, 0.0, 0.0);
    FromCameraDirection(origin, aspectRatio, focalLength, 0.5, 0.5);
  }

  /** As written, changing the focal length does not move a single primary ray:
      rays are built from the lower-left corner, which the setter leaves stale. */
  lemma SetFocalLengthKeepsRays(c: Camera, focalLength: real, u: real, v: real)
    ensures FromCamera(SetFocalLength(c, focalLength), u, v) == FromCamera(c, u, v)
  {
  }

  /** A concrete instance: zooming the default camera to focal length 1.1 leaves
      the centre ray looking at depth 1, where a camera built with focal length 1.1
      looks at depth 1.1. */
  lemma SetFocalLengthCounterexample()
    ensures FromCamera(SetFocalLength(DefaultCamera(), 1.1), 0.5, 0.5).direction == Vec3(0.0, 0.0, -1.0)
    ensures FromCamera(NewCamera(Zero, DefaultAspectRatio, 1.1), 0.5, 0.5).direction == Vec3(0.0, 0.0, -1.1)
  {
    ViewportCornerAndCentre(Zero, DefaultAspectRatio, 1.0);
    ViewportCornerAndCentre(Zero, DefaultAspectRatio, 1.1);
  }

  /** With the corrected setter, every primary ray of a refocused camera is the ray
      of the camera built with the new focal length. */
  lemma RefocusMovesRays(origin: Vec3, aspectRatio: real, f0: real, f: real, u: real, v: real)
    ensures FromCamera(Refocus(NewCamera(origin, aspectRatio, f0), f), u, v).direction
         == Vec3(2.0 * aspectRatio * u - aspectRatio, 2.0 * v - 1.0, -f)
  {
    RefocusMatchesNew(origin, aspectRatio, f0, f);
    FromCameraDirection(origin, aspectRatio, f, u, v);
  }
}

=== FILE: reals.dfy ===
/** Facts about real arithmetic that the geometric proofs lean on. Each lemma is
    stated on plain parameters, so that the nonlinear terms meet the solver in
    isolation; callers instantiate them with dot products and coordinates. */
module RealArith {

  lemma SquareNonNegative(a: real)
    ensures !(a * a < 0.0)
  {
  }

  lemma SquarePositive(a: real)
    requires a < 0.0 || 0.0 < a
    ensures 0.0 < a * a
  {
  }

  /** Squares of equal magnitude: `x` is `s` or `-s`. */
  lemma SquaresEqual(x: real, s: real)
    requires !(s < 0.0) && x * x == s * s
    ensures x == s || x == -s
  {
    assert (x - s) * (x + s) == x * x - s * s;
    if x != s && x != -s {
      ProductNonZero(x - s, x + s);
    }
  }

  lemma ProductNonZero(p: real, q: real)
    requires p != 0.0 && q != 0.0
    ensures p * q != 0.0
  {
  }

  /** Completing the square: `(2at + b)^2 - (b^2 - 4ac) = 4a(at^2 + bt + c)`. */
  lemma CompletedSquare(a: real, b: real, c: real, t: real)
    ensures (2.0 * a * t + b) * (2.0 * a * t + b) - (b * b - 4.0 * a * c)
         == 4.0 * a * (a * t * t + b * t + c)
  {
  }

  lemma DivisionUndone(n: real, a: real)
    requires a < 0.0 || 0.0 < a
    ensures 2.0 * a * (n / (2.0 * a)) == n
  {
  }

  /** Both roots `(-b -+ s) / 2a` of the quadratic solve it, when `s` is the square
      root of the discriminant. */
  lemma QuadraticRoot(a: real, b: real, c: real, s: real, t: real)
    requires a < 0.0 || 0.0 < a
    requires s * s == b * b - 4.0 * a * c
    requires t == (-b - s) / (2.0 * a) || t == (-b + s) / (2.0 * a)
    ensures a * t * t + b * t == -c
  {
    var q := 2.0 * a * t + b;
    if t == (-b - s) / (2.0 * a) {
      DivisionUndone(-b - s, a);
      assert q == -s;
    } else {
      DivisionUndone(-b + s, a);
      assert q == s;
    }
    assert q * q == s * s;
    CompletedSquare(a, b, c, t);
    ZeroFactor(4.0 * a, a * t * t + b * t + c);
  }

  lemma ZeroFactor(k: real, e: real)
    requires k < 0.0 || 0.0 < k
    requires !(k * e < 0.0) && !(0.0 < k * e)
    ensures e == 0.0
  {
    if e < 0.0 || 0.0 < e {
      ProductNonZero(k, e);
    }
  }

  /** Conversely every root is one of the two. */
  lemma OnlyTwoRoots(a: real, b: real, c: real, s: real, t: real)
    requires 0.0 < a && !(s < 0.0)
    requires s * s == b * b - 4.0 * a * c
    requires a * t * t + b * t == -c
    ensures t == (-b - s) / (2.0 * a) || t == (-b + s) / (2.0 * a)
  {
    var q := 2.0 * a * t + b;
    CompletedSquare(a, b, c, t);
    assert q * q == s * s;
    SquaresEqual(q, s);
    if q == -s {
      DivisionUndone(-b - s, a);
      Cancel(2.0 * a, t, (-b - s) / (2.0 * a));
    } else {
      DivisionUndone(-b + s, a);
      Cancel(2.0 * a, t, (-b + s) / (2.0 * a));
    }
  }

  lemma Cancel(k: real, t: real, u: real)
    requires k < 0.0 || 0.0 < k
    requires k * t == k * u
    ensures t == u
  {
    assert k * (t - u) == k * t - k * u;
    ZeroFactor(k, t - u);
  }

  /** With `a > 0` and `s >= 0` the minus root never exceeds the plus root. */
  lemma RootsOrdered(a: real, b: real, s: real)
    requires 0.0 < a && !(s < 0.0)
    ensures (-b - s) / (2.0 * a) <= (-b + s) / (2.0 * a)
  {
    DivisionUndone(-b - s, a);
    DivisionUndone(-b + s, a);
    ScaledOrder(2.0 * a, (-b - s) / (2.0 * a), (-b + s) / (2.0 * a));
  }

  lemma ScaledOrder(k: real, t: real, u: real)
    requires 0.0 < k && !(k * u < k * t)
    ensures t <= u
  {
  }

  lemma ProductPositive(p: real, q: real)
    requires 0.0 < p && 0.0 < q
    ensures 0.0 < p * q
  {
  }

  /** A negative discriminant leaves the quadratic without real roots. */
  lemma NoRealRoot(a: real, b: real, c: real, t: real)
    requires b * b - 4.0 * a * c < 0.0
    ensures a * t * t + b * t != -c
  {
    var q := 2.0 * a * t + b;
    CompletedSquare(a, b, c, t);
    SquareNonNegative(q);
    if a * t * t + b * t == -c {
      assert false;
    }
  }

  /** `|o + t d|^2 = |o|^2 + 2 (o . d) t + |d|^2 t^2`, written out on coordinates. */
  lemma ExpandedSquare(ox: real, oy: real, oz: real, dx: real, dy: real, dz: real, t: real,
                       a: real, b: real, c: real, w: real)
    requires a == dx * dx + dy * dy + dz * dz
    requires b == 2.0 * (ox * dx + oy * dy + oz * dz)
    requires c == ox * ox + oy * oy + oz * oz
    requires w == (ox + dx * t) * (ox + dx * t) + (oy + dy * t) * (oy + dy * t) + (oz + dz * t) * (oz + dz * t)
    ensures w == c + b * t + a * t * t
  {
  }

  /** Scaling a vector of squared length `r^2` by `1/r` gives squared length 1. */
  lemma ReciprocalSquare(k: real, r: real, q: real)
    requires k * r == 1.0 && q == r * r
    ensures k * k * q == 1.0
  {
    calc {
      k * k * q;
      k * k * (r * r);
      (k * r) * (k * r);
      1.0;
    }
  }

  lemma ReciprocalPositive(r: real)
    requires 0.0 < r
    ensures 0.0 < 1.0 / r && r * (1.0 / r) == 1.0
  {
  }

  lemma DivideIsMultiply(x: real, r: real)
    requires r < 0.0 || 0.0 < r
    ensures x / r == x * (1.0 / r) && r * (1.0 / r) == 1.0
  {
  }

  lemma DivideByNegation(x: real, r: real)
    requires r < 0.0 || 0.0 < r
    ensures x / -r == -(x / r)
  {
  }

  /** Multiplying by a positive factor keeps the sign. */
  lemma PositiveMultiple(k: real, x: real)
    requires 0.0 < k
    ensures (k * x < 0.0 <==> x < 0.0) && (0.0 < k * x <==> 0.0 < x)
  {
    if x < 0.0 {
      ProductPositive(k, -x);
    } else if 0.0 < x {
      ProductPositive(k, x);
    }
  }

  /** `a * t` stays below `a` for `t` in [0, 1] and `a` non-negative. */
  lemma ScaledDown(a: real, t: real)
    requires !(a < 0.0) && !(t < 0.0) && !(1.0 < t)
    ensures !(a < a * t) && !(a * t < 0.0)
  {
    assert a - a * t == a * (1.0 - t);
  }

  lemma ProductBounds(a: real, t: real)
    requires !(1.0 < a) && !(1.0 < t)
    ensures a + t - 1.0 <= a * t
  {
    var p, q := 1.0 - a, 1.0 - t;
    assert 0.0 <= p * q;
    assert p * q == 1.0 - a - t + a * t;
  }

  /** Linear interpolation between two values of [0, 1] stays in [0, 1]. */
  lemma InterpolationInUnit(a: real, b: real, t: real)
    requires !(a < 0.0) && !(1.0 < a) && !(b < 0.0) && !(1.0 < b)
    requires !(t < 0.0) && !(1.0 < t)
    ensures 0.0 <= a * (1.0 - t) + b * t <= 1.0
  {
    ScaledDown(a, t);
    ScaledDown(b, t);
    ProductBounds(a, t);
  }

  /** The product of two values of [0, 1] is in [0, 1]. */
  lemma ProductInUnit(a: real, b: real)
    requires !(a < 0.0) && !(1.0 < a) && !(b < 0.0) && !(1.0 < b)
    ensures 0.0 <= a * b <= 1.0
  {
    ScaledDown(a, b);
  }

  /** `|x| < e` bounds the square: `x^2 < e^2`. */
  lemma SmallSquare(x: real, e: real)
    requires -e < x && x < e
    ensures x * x < e * e
  {
    assert e * e - x * x == (e - x) * (e + x);
    ProductPositive(e - x, e + x);
  }

  /** A square of at most 1 has a root in [-1, 1]. */
  lemma SquareAtMostOne(x: real)
    requires !(1.0 < x * x)
    ensures -1.0 <= x <= 1.0
  {
  }

  /** Each of three reals whose squares sum to at most 1 lies in [-1, 1]. */
  lemma SquaresAtMostOne(x: real, y: real, z: real, d: real)
    requires d == x * x + y * y + z * z && !(1.0 < d)
    ensures -1.0 <= x <= 1.0 && -1.0 <= y <= 1.0 && -1.0 <= z <= 1.0
  {
    SquareNonNegative(x);
    SquareNonNegative(y);
    SquareNonNegative(z);
    SquareAtMostOne(x);
    SquareAtMostOne(y);
    SquareAtMostOne(z);
  }

  /** With positive `a`, `b` and `t`, the quadratic part `a t^2 + b t` is positive. */
  lemma PositiveQuadratic(a: real, b: real, t: real)
    requires 0.0 < a && 0.0 < b && 0.0 < t
    ensures 0.0 < a * t * t + b * t
  {
    ProductPositive(a, t);
    ProductPositive(a * t, t);
    ProductPositive(b, t);
  }

  /** Multiplying by a factor in [-1, 1] keeps a value inside `(-e, e)`. */
  lemma SmallProduct(x: real, a: real, e: real)
    requires -e < x && x < e && !(a < -1.0) && !(1.0 < a)
    ensures -e < x * a && x * a < e
  {
    if !(x < 0.0) {
      if !(a < 0.0) {
        ScaledDown(x, a);
      } else {
        ScaledDown(x, -a);
      }
    } else {
      if !(a < 0.0) {
        ScaledDown(-x, a);
      } else {
        ScaledDown(-x, -a);
      }
    }
  }

  lemma UnitIntervalSquare(z: real)
    requires !(z < -1.0) && !(1.0 < z)
    ensures !(z * z < 0.0) && !(1.0 < z * z)
  {
    if z < 0.0 {
      ScaledDown(-z, -z);
    } else {
      ScaledDown(z, z);
    }
  }
}

=== FILE: sphere.dfy ===
/** Ray-sphere intersection: the quadratic `a t^2 + b t + c = 0` for the points of
    the ray on the sphere, solved with the discriminant and tried nearer root
    first inside the open `t` window. */
module Spheres {
  import opened Wrappers
  import opened RealArith
  import opened Vectors
  import opened MaterialKinds
  import opened Rays
  import opened HitInfos

  /** A sphere's radius; zero is excluded because the outward normal divides by it. */
  type Radius = r: real | r < 0.0 || 0.0 < r witness 1.0

  /** `Sphere`: a centre, a radius (negative radii are allowed and turn the normal
      inwards) and a material. */
  datatype Sphere = Sphere(center: Vec3, radius: Radius, material: MaterialKind)

  /** The same sphere described with the opposite radius. */
  function Inverted(s: Sphere): Sphere {
    s.(radius := Negated(s.radius))
  }

  function Negated(r: Radius): (n: Radius)
    ensures n as real == -(r as real)
  {
    var x: real := r;
    0.0 - x
  }

  /** The coefficients of `|origin + t direction - center|^2 - radius^2` as a
      polynomial in `t`. */
  function QuadA(ray: Ray): real {
    Dot(ray.direction, ray.direction)
  }

  function QuadB(s: Sphere, ray: Ray): real {
    2.0 * Dot(Sub(ray.origin, s.center), ray.direction)
  }

  function QuadC(s: Sphere, ray: Ray): real {
    Dot(Sub(ray.origin, s.center), Sub(ray.origin, s.center)) - s.radius * s.radius
  }

  function Discriminant(s: Sphere, ray: Ray): real {
    QuadB(s, ray) * QuadB(s, ray) - 4.0 * QuadA(ray) * QuadC(s, ray)
  }

  /** The point `p` lies on the surface of the sphere about `center` with the given
      radius, at distance `|radius|` from the centre; for a radius of 0, `p` is
      the centre itself. */
  predicate OnSphereOf(center: Vec3, radius: real, p: Vec3) {
    Dot(Sub(p, center), Sub(p, center)) == radius * radius
  }

  /** The point `p` lies on the sphere's surface. */
  predicate OnSurface(s: Sphere, p: Vec3) {
    OnSphereOf(s.center, s.radius, p)
  }

  /** The two candidate roots `(-b -+ sqrt(disc)) / 2a`. */
  function NearRoot(s: Sphere, ray: Ray, sqrt: real -> real): real
    requires QuadA(ray) != 0.0
  {
    (-QuadB(s, ray) - sqrt(Discriminant(s, ray))) / (2.0 * QuadA(ray))
  }

  function FarRoot(s: Sphere, ray: Ray, sqrt: real -> real): real
    requires QuadA(ray) != 0.0
  {
    (-QuadB(s, ray) + sqrt(Discriminant(s, ray))) / (2.0 * QuadA(ray))
  }

  /** `(p - center) / radius`: the unit normal pointing out of the sphere (into it
      for a negative radius). */
  function Outward(s: Sphere, p: Vec3): Vec3 {
    Div(Sub(p, s.center), s.radius)
  }

  /** The hit record built for root `t`. */
  function Record(s: Sphere, ray: Ray, t: real): HitInfo {
    var p := At(ray, t);
    SetFaceNormal(NewHitInfo(true, t, p, Outward(s, p), s.material), ray.direction, Outward(s, p))
  }

  /** `Sphere::hit`. A zero direction makes both roots NaN or infinite in the
      source, and the strict window comparisons reject them: no hit. */
  function Hit(s: Sphere, ray: Ray, tMin: real, tMax: Bound, sqrt: real -> real): (r: Option<HitInfo>)
    ensures Discriminant(s, ray) < 0.0 ==> r.None?
    ensures r.Some? ==> InWindow(r.value.t, tMin, tMax)
    ensures r.Some? ==> r.value.hit && r.value.p == At(ray, r.value.t) && r.value.material == s.material
    ensures r.Some? ==> Dot(r.value.normal, ray.direction) <= 0.0
  {
    if Discriminant(s, ray) < 0.0 then None
    else if QuadA(ray) == 0.0 then None
    else if InWindow(NearRoot(s, ray, sqrt), tMin, tMax) then Some(Record(s, ray, NearRoot(s, ray, sqrt)))
    else if InWindow(FarRoot(s, ray, sqrt), tMin, tMax) then Some(Record(s, ray, FarRoot(s, ray, sqrt)))
    else None
  }

  /** The points of the ray on the surface are the roots of the quadratic. */
  lemma SurfaceEquation(s: Sphere, ray: Ray, t: real)
    ensures OnSurface(s, At(ray, t))
        <==> QuadA(ray) * t * t + QuadB(s, ray) * t == -QuadC(s, ray)
  {
    SphereOfEquation(s.center, s.radius, ray, t, QuadA(ray), QuadB(s, ray), QuadC(s, ray));
  }

  /** The same equation for any centre and any radius, zero included, with the
      coefficients `a`, `b` and `c` as `hit` computes them. */
  lemma SphereOfEquation(center: Vec3, radius: real, ray: Ray, t: real, a: real, b: real, c: real)
    requires a == Dot(ray.direction, ray.direction)
    requires b == 2.0 * Dot(Sub(ray.origin, center), ray.direction)
    requires c == Dot(Sub(ray.origin, center), Sub(ray.origin, center)) - radius * radius
    ensures OnSphereOf(center, radius, At(ray, t)) <==> a * t * t + b * t == -c
  {
    SphereOfExpansion(center, ray, t, Sub(At(ray, t), center), a, b);
  }

  lemma SphereOfExpansion(center: Vec3, ray: Ray, t: real, w: Vec3, a: real, b: real)
    requires w == Sub(At(ray, t), center)
    requires a == Dot(ray.direction, ray.direction)
    requires b == 2.0 * Dot(Sub(ray.origin, center), ray.direction)
    ensures Dot(w, w) == Dot(Sub(ray.origin, center), Sub(ray.origin, center)) + b * t + a * t * t
  {
    var oc := Sub(ray.origin, center);
    var d := ray.direction;
    assert w == Vec3(oc.x + d.x * t, oc.y + d.y * t, oc.z + d.z * t);
    ExpandedSquare(oc.x, oc.y, oc.z, d.x, d.y, d.z, t, a, b, Dot(oc, oc), Dot(w, w));
  }

  /** Both candidate roots lie on the sphere, the nearer is never beyond the
      farther, and no other point of the ray lies on the sphere. */
  lemma RootsOnSurface(s: Sphere, ray: Ray, sqrt: real -> real)
    requires IsSqrt(sqrt) && QuadA(ray) != 0.0 && 0.0 <= Discriminant(s, ray)
    ensures OnSurface(s, At(ray, NearRoot(s, ray, sqrt)))
    ensures OnSurface(s, At(ray, FarRoot(s, ray, sqrt)))
    ensures NearRoot(s, ray, sqrt) <= FarRoot(s, ray, sqrt)
    ensures forall t :: OnSurface(s, At(ray, t)) ==> t == NearRoot(s, ray, sqrt) || t == FarRoot(s, ray, sqrt)
  {
    RootSolves(s, ray, sqrt, NearRoot(s, ray, sqrt));
    RootSolves(s, ray, sqrt, FarRoot(s, ray, sqrt));
    DotSelfNonNegative(ray.direction);
    RootsOrdered(QuadA(ray), QuadB(s, ray), sqrt(Discriminant(s, ray)));
    forall t | OnSurface(s, At(ray, t))
      ensures t == NearRoot(s, ray, sqrt) || t == FarRoot(s, ray, sqrt)
    {
      OnlyRoots(s, ray, sqrt, t);
    }
  }

  lemma RootSolves(s: Sphere, ray: Ray, sqrt: real -> real, t: real)
    requires IsSqrt(sqrt) && QuadA(ray) != 0.0 && 0.0 <= Discriminant(s, ray)
    requires t == NearRoot(s, ray, sqrt) || t == FarRoot(s, ray, sqrt)
    ensures OnSurface(s, At(ray, t))
  {
    var root := sqrt(Discriminant(s, ray));
    assert root * root == Discriminant(s, ray);
    RootSolvesWith(s, ray, root, t);
  }

  /** The same with the square root of the discriminant given as `root`. */
  lemma RootSolvesWith(s: Sphere, ray: Ray, root: real, t: real)
    requires QuadA(ray) != 0.0 && root * root == Discriminant(s, ray)
    requires t == (-QuadB(s, ray) - root) / (2.0 * QuadA(ray)) || t == (-QuadB(s, ray) + root) / (2.0 * QuadA(ray))
    ensures OnSurface(s, At(ray, t))
  {
    RootOnSphereOf(s.center, s.radius, ray, QuadA(ray), QuadB(s, ray), QuadC(s, ray), root, t);
  }

  /** A root of the quadratic is a point of the ray on the sphere. */
  lemma RootOnSphereOf(center: Vec3, radius: real, ray: Ray, a: real, b: real, c: real, root: real, t: real)
    requires a == Dot(ray.direction, ray.direction) && a != 0.0
    requires b == 2.0 * Dot(Sub(ray.origin, center), ray.direction)
    requires c == Dot(Sub(ray.origin, center), Sub(ray.origin, center)) - radius * radius
    requires root * root == b * b - 4.0 * a * c
    requires t == (-b - root) / (2.0 * a) || t == (-b + root) / (2.0 * a)
    ensures OnSphereOf(center, radius, At(ray, t))
  {
    QuadraticRoot(a, b, c, root, t);
    SphereOfEquation(center, radius, ray, t, a, b, c);
  }

  lemma OnlyRoots(s: Sphere, ray: Ray, sqrt: real -> real, t: real)
    requires IsSqrt(sqrt) && QuadA(ray) != 0.0 && 0.0 <= Discriminant(s, ray)
    requires OnSurface(s, At(ray, t))
    ensures t == NearRoot(s, ray, sqrt) || t == FarRoot(s, ray, sqrt)
  {
    var a, b, c := QuadA(ray), QuadB(s, ray), QuadC(s, ray);
    var root := sqrt(Discriminant(s, ray));
    assert root * root == b * b - 4.0 * a * c;
    DotSelfNonNegative(ray.direction);
    SurfaceEquation(s, ray, t);
    OnlyTwoRoots(a, b, c, root, t);
  }

  /** The outward normal at a point of the surface is a unit vector. */
  lemma OutwardIsUnit(s: Sphere, p: Vec3)
    requires OnSurface(s, p)
    ensures Dot(Outward(s, p), Outward(s, p)) == 1.0
  {
    var q := Sub(p, s.center);
    var k := 1.0 / s.radius;
    DivideIsMultiply(q.x, s.radius);
    DivideIsMultiply(q.y, s.radius);
    DivideIsMultiply(q.z, s.radius);
    assert Outward(s, p) == Scale(q, k);
    DotScaleLeft(q, k, Scale(q, k));
    DotScaleLeft(q, k, q);
    DotSymmetric(q, Scale(q, k));
    ReciprocalSquare(k, s.radius, Dot(q, q));
  }

  /** Every hit lies on the sphere, with a unit normal. */
  lemma HitOnSurface(s: Sphere, ray: Ray, tMin: real, tMax: Bound, sqrt: real -> real)
    requires IsSqrt(sqrt)
    ensures Hit(s, ray, tMin, tMax, sqrt).Some? ==>
      OnSurface(s, Hit(s, ray, tMin, tMax, sqrt).value.p)
      && Dot(Hit(s, ray, tMin, tMax, sqrt).value.normal, Hit(s, ray, tMin, tMax, sqrt).value.normal) == 1.0
  {
    if Hit(s, ray, tMin, tMax, sqrt).Some? {
      RootsOnSurface(s, ray, sqrt);
      OutwardIsUnit(s, Hit(s, ray, tMin, tMax, sqrt).value.p);
    }
  }

  /** A hit is the nearest point of the ray on the sphere inside the window. */
  lemma HitIsNearest(s: Sphere, ray: Ray, tMin: real, tMax: Bound, sqrt: real -> real)
    requires IsSqrt(sqrt)
    ensures Hit(s, ray, tMin, tMax, sqrt).Some? ==>
      forall t :: InWindow(t, tMin, tMax) && OnSurface(s, At(ray, t)) ==> Hit(s, ray, tMin, tMax, sqrt).value.t <= t
  {
    if Hit(s, ray, tMin, tMax, sqrt).Some? {
      RootsOnSurface(s, ray, sqrt);
    }
  }

  /** For a ray with a non-zero direction, `hit` finds something exactly when some
      point of the ray inside the window lies on the sphere. */
  lemma HitIffRootInWindow(s: Sphere, ray: Ray, tMin: real, tMax: Bound, sqrt: real -> real)
    requires IsSqrt(sqrt) && QuadA(ray) != 0.0
    ensures Hit(s, ray, tMin, tMax, sqrt).Some?
        <==> exists t :: InWindow(t, tMin, tMax) && OnSurface(s, At(ray, t))
  {
    if Hit(s, ray, tMin, tMax, sqrt).Some? {
      HitOnSurface(s, ray, tMin, tMax, sqrt);
      var h := Hit(s, ray, tMin, tMax, sqrt).value;
      assert InWindow(h.t, tMin, tMax) && OnSurface(s, At(ray, h.t));
    } else if Discriminant(s, ray) < 0.0 {
      forall t | InWindow(t, tMin, tMax)
        ensures !OnSurface(s, At(ray, t))
      {
        SurfaceEquation(s, ray, t);
        NoRealRoot(QuadA(ray), QuadB(s, ray), QuadC(s, ray), t);
      }
    } else {
      RootsOnSurface(s, ray, sqrt);
    }
  }

  /** A ray that starts on the surface and heads out of the sphere never meets it
      again: no window starting at a non-negative `t_min` yields a hit. */
  lemma LeavingRayMisses(s: Sphere, ray: Ray, tMin: real, tMax: Bound, sqrt: real -> real)
    requires IsSqrt(sqrt) && OnSurface(s, ray.origin)
    requires 0.0 < Dot(Sub(ray.origin, s.center), ray.direction) && 0.0 <= tMin
    ensures Hit(s, ray, tMin, tMax, sqrt).None?
  {
    if Hit(s, ray, tMin, tMax, sqrt).Some? {
      var h := Hit(s, ray, tMin, tMax, sqrt).value;
      HitOnSurface(s, ray, tMin, tMax, sqrt);
      NothingAhead(s, ray, h.t);
      assert false;
    }
  }

  /** Past its start, a ray leaving the surface outwards has no point on it. */
  lemma NothingAhead(s: Sphere, ray: Ray, t: real)
    requires OnSurface(s, ray.origin) && 0.0 < Dot(Sub(ray.origin, s.center), ray.direction) && 0.0 < t
    ensures !OnSurface(s, At(ray, t))
  {
    SurfaceEquation(s, ray, t);
    DotSelfNonNegative(ray.direction);
    assert QuadC(s, ray) == 0.0;
    if QuadA(ray) == 0.0 {
      assert QuadA(ray) * t * t == 0.0;
      ProductPositive(QuadB(s, ray), t);
    } else {
      PositiveQuadratic(QuadA(ray), QuadB(s, ray), t);
    }
  }

  /** Narrowing the window to a bound `inner` no larger than `outer` keeps a hit
      that lies below `inner` unchanged and otherwise loses it; it never creates
      a hit. */
  lemma Narrowed(s: Sphere, ray: Ray, tMin: real, outer: Bound, inner: Bound, sqrt: real -> real)
    requires IsSqrt(sqrt) && AtMost(inner, outer)
    ensures Hit(s, ray, tMin, outer, sqrt).None? ==> Hit(s, ray, tMin, inner, sqrt).None?
    ensures Hit(s, ray, tMin, outer, sqrt).Some? && Below(Hit(s, ray, tMin, outer, sqrt).value.t, inner)
            ==> Hit(s, ray, tMin, inner, sqrt) == Hit(s, ray, tMin, outer, sqrt)
    ensures Hit(s, ray, tMin, outer, sqrt).Some? && !Below(Hit(s, ray, tMin, outer, sqrt).value.t, inner)
            ==> Hit(s, ray, tMin, inner, sqrt).None?
  {
    if !(Discriminant(s, ray) < 0.0) && QuadA(ray) != 0.0 {
      RootsOnSurface(s, ray, sqrt);
    }
  }

  /** Negating the radius describes the same sphere: the hit has the same `t` and
      point. The geometric normal turns round, so unless the ray grazes the
      surface the stored normal is the same and `front_face` flips. */
  lemma NegatedRadius(s: Sphere, ray: Ray, tMin: real, tMax: Bound, sqrt: real -> real)
    ensures Hit(Inverted(s), ray, tMin, tMax, sqrt).Some? <==> Hit(s, ray, tMin, tMax, sqrt).Some?
    ensures Hit(s, ray, tMin, tMax, sqrt).Some? ==>
      var h, g := Hit(s, ray, tMin, tMax, sqrt).value, Hit(Inverted(s), ray, tMin, tMax, sqrt).value;
      g.t == h.t && g.p == h.p && g.material == h.material
      && Outward(Inverted(s), h.p) == Neg(Outward(s, h.p))
      && (Dot(ray.direction, Outward(s, h.p)) != 0.0 ==> g.normal == h.normal && g.frontFace == !h.frontFace)
  {
    InvertedQuadratic(s, ray);
    if !(Discriminant(s, ray) < 0.0) && QuadA(ray) != 0.0 {
      var near, far := NearRoot(s, ray, sqrt), FarRoot(s, ray, sqrt);
      assert NearRoot(Inverted(s), ray, sqrt) == near && FarRoot(Inverted(s), ray, sqrt) == far;
      if InWindow(near, tMin, tMax) {
        assert Hit(s, ray, tMin, tMax, sqrt) == Some(Record(s, ray, near));
        assert Hit(Inverted(s), ray, tMin, tMax, sqrt) == Some(Record(Inverted(s), ray, near));
        InvertedRecord(s, ray, near);
      } else if InWindow(far, tMin, tMax) {
        assert Hit(s, ray, tMin, tMax, sqrt) == Some(Record(s, ray, far));
        assert Hit(Inverted(s), ray, tMin, tMax, sqrt) == Some(Record(Inverted(s), ray, far));
        InvertedRecord(s, ray, far);
      }
    }
  }

  lemma InvertedQuadratic(s: Sphere, ray: Ray)
    ensures QuadB(Inverted(s), ray) == QuadB(s, ray)
    ensures QuadC(Inverted(s), ray) == QuadC(s, ray)
    ensures Discriminant(Inverted(s), ray) == Discriminant(s, ray)
  {
    var r: real := s.radius;
    assert (-r) * (-r) == r * r;
  }

  lemma InvertedRecord(s: Sphere, ray: Ray, t: real)
    ensures Record(Inverted(s), ray, t).t == Record(s, ray, t).t
    ensures Record(Inverted(s), ray, t).p == Record(s, ray, t).p
    ensures Record(Inverted(s), ray, t).material == Record(s, ray, t).material
    ensures Outward(Inverted(s), At(ray, t)) == Neg(Outward(s, At(ray, t)))
    ensures Dot(ray.direction, Outward(s, At(ray, t))) != 0.0 ==>
      Record(Inverted(s), ray, t).normal == Record(s, ray, t).normal
      && Record(Inverted(s), ray, t).frontFace == !Record(s, ray, t).frontFace
  {
    var p := At(ray, t);
    var q := Sub(p, s.center);
    DivideByNegation(q.x, s.radius);
    DivideByNegation(q.y, s.radius);
    DivideByNegation(q.z, s.radius);
    assert Outward(Inverted(s), p) == Neg(Outward(s, p));
    if Dot(ray.direction, Outward(s, p)) != 0.0 {
      FlippedOutward(NewHitInfo(true, t, p, Outward(s, p), s.material), ray.direction, Outward(s, p));
    }
  }
}

=== FILE: tracer.dfy ===
/** The renderer proper: the sky gradient, the standalone sphere test, the
    depth-bounded recursive colour of a ray, and the colour of one pixel. Every
    random number is an input: the unit draws of the bounces and the sub-pixel
    jitters. */
module Tracer {
  import opened Wrappers
  import opened RealArith
  import opened Vectors
  import opened Colors
  import opened Geometry
  import opened Cameras
  import opened Rays
  import opened HitInfos
  import opened MaterialKinds
  import opened Scattering
  import Spheres
  import Worlds

  /** `ray_color`: the sky, blended from white at the bottom to blue at the top by
      the height of the unit direction. */
  function RayColor(ray: Ray, sqrt: real -> real): (c: Color)
    ensures c.a == 1.0
  {
    var unit := Normalize(ray.direction, sqrt);
    ColorLerp(White, SkyBlue, 0.5 * (unit.y + 1.0))
  }

  /** The sky is opaque and, for an exact square root, every channel lies in
      [0, 1]. */
  lemma SkyInRange(ray: Ray, sqrt: real -> real)
    requires IsSqrt(sqrt)
    ensures RgbInUnit(RayColor(ray, sqrt))
    ensures RayColor(ray, sqrt).a == 1.0
  {
    var unit := Normalize(ray.direction, sqrt);
    NormalizeBounded(ray.direction, sqrt);
    ShortComponentsBounded(unit);
    LerpInUnit(White, SkyBlue, 0.5 * (unit.y + 1.0));
    LerpOpaque(White, SkyBlue, 0.5 * (unit.y + 1.0));
  }

  /** Straight up the sky is blue `(0.5, 0.7, 1)`, straight down it is white, for
      a direction of any positive length. */
  lemma SkyZenithAndNadir(origin: Vec3, height: real, sqrt: real -> real)
    requires IsSqrt(sqrt) && 0.0 < height
    ensures RayColor(Ray(origin, Vec3(0.0, height, 0.0)), sqrt) == SkyBlue
    ensures RayColor(Ray(origin, Vec3(0.0, -height, 0.0)), sqrt) == White
  {
    var q := height * height;
    SquarePositive(height);
    assert sqrt(q) * sqrt(q) == height * height;
    SquaresEqual(sqrt(q), height);
    assert Dot(Vec3(0.0, height, 0.0), Vec3(0.0, height, 0.0)) == q;
    assert Dot(Vec3(0.0, -height, 0.0), Vec3(0.0, -height, 0.0)) == q;
    assert height * (1.0 / height) == 1.0;
    assert -height * (1.0 / height) == -1.0;
    LerpEndpoints(White, SkyBlue);
  }

  /** The error `hit_sphere` reports when the discriminant is negative: the
      ray's line passes the sphere by. */
  datatype NoIntersectionError = NoIntersectionError

  /** `hit_sphere(center, radius, ray)`: the smaller root of the ray's quadratic,
      with no `t` window, or an error when the discriminant is negative. Any
      radius is accepted, 0 included. An error can only come for a ray that starts
      outside the sphere. */
  function HitSphere(center: Vec3, radius: real, ray: Ray, sqrt: real -> real): (r: Result<real, NoIntersectionError>)
    requires Dot(ray.direction, ray.direction) != 0.0
    ensures r.Err? ==> radius * radius < Dot(Sub(ray.origin, center), Sub(ray.origin, center))
  {
    var oc := Sub(ray.origin, center);
    var a := Dot(ray.direction, ray.direction);
    var b := 2.0 * Dot(oc, ray.direction);
    var c := Dot(oc, oc) - radius * radius;
    var discriminant := b * b - 4.0 * a * c;
    if discriminant < 0.0 then
      DotSelfNonNegative(ray.direction);
      SquareNonNegative(b);
      assert 0.0 < a * c;
      Err(NoIntersectionError)
    else
      Ok((-b - sqrt(discriminant)) / (2.0 * a))
  }

  /** `hit_sphere`'s result in terms of the coefficients it computes. */
  lemma HitSphereRoot(center: Vec3, radius: real, ray: Ray, sqrt: real -> real, a: real, b: real, c: real)
    requires a == Dot(ray.direction, ray.direction) && a != 0.0
    requires b == 2.0 * Dot(Sub(ray.origin, center), ray.direction)
    requires c == Dot(Sub(ray.origin, center), Sub(ray.origin, center)) - radius * radius
    ensures HitSphere(center, radius, ray, sqrt).Err? <==> b * b - 4.0 * a * c < 0.0
    ensures HitSphere(center, radius, ray, sqrt).Ok? ==>
      HitSphere(center, radius, ray, sqrt).value == (-b - sqrt(b * b - 4.0 * a * c)) / (2.0 * a)
  {
    var disc := b * b - 4.0 * a * c;
    if disc < 0.0 {
      assert HitSphere(center, radius, ray, sqrt) == Err(NoIntersectionError);
    } else {
      assert HitSphere(center, radius, ray, sqrt) == Ok((-b - sqrt(disc)) / (2.0 * a));
    }
  }

  /** `hit_sphere` fails exactly when the ray's line misses the sphere altogether;
      when it succeeds its root is a point of the ray on the sphere no farther than
      any other, whatever its sign. */
  lemma HitSphereIsNearestRoot(center: Vec3, radius: real, ray: Ray, sqrt: real -> real)
    requires IsSqrt(sqrt) && Dot(ray.direction, ray.direction) != 0.0
    ensures HitSphere(center, radius, ray, sqrt).Err?
        <==> forall t :: !Spheres.OnSphereOf(center, radius, At(ray, t))
    ensures HitSphere(center, radius, ray, sqrt).Ok? ==>
      && Spheres.OnSphereOf(center, radius, At(ray, HitSphere(center, radius, ray, sqrt).value))
      && forall t :: Spheres.OnSphereOf(center, radius, At(ray, t)) ==> HitSphere(center, radius, ray, sqrt).value <= t
  {
    var oc := Sub(ray.origin, center);
    var a := Dot(ray.direction, ray.direction);
    var b := 2.0 * Dot(oc, ray.direction);
    var c := Dot(oc, oc) - radius * radius;
    var disc := b * b - 4.0 * a * c;
    DotSelfNonNegative(ray.direction);
    HitSphereRoot(center, radius, ray, sqrt, a, b, c);
    if disc < 0.0 {
      forall t
        ensures !Spheres.OnSphereOf(center, radius, At(ray, t))
      {
        Spheres.SphereOfEquation(center, radius, ray, t, a, b, c);
        NoRealRoot(a, b, c, t);
      }
    } else {
      var root := sqrt(disc);
      assert root * root == disc;
      var near := (-b - root) / (2.0 * a);
      QuadraticRoot(a, b, c, root, near);
      Spheres.SphereOfEquation(center, radius, ray, near, a, b, c);
      RootsOrdered(a, b, root);
      forall t | Spheres.OnSphereOf(center, radius, At(ray, t))
        ensures near <= t
      {
        Spheres.SphereOfEquation(center, radius, ray, t, a, b, c);
        OnlyTwoRoots(a, b, c, root, t);
      }
    }
  }

  /** `hit_sphere` sets up the same quadratic as `Sphere::hit` and returns its
      smaller root. */
  lemma SameQuadratic(s: Spheres.Sphere, ray: Ray, sqrt: real -> real)
    requires Dot(ray.direction, ray.direction) != 0.0
    ensures HitSphere(s.center, s.radius, ray, sqrt).Err? <==> Spheres.Discriminant(s, ray) < 0.0
    ensures HitSphere(s.center, s.radius, ray, sqrt).Ok? ==>
      HitSphere(s.center, s.radius, ray, sqrt).value == Spheres.NearRoot(s, ray, sqrt)
  {
    var disc := Spheres.Discriminant(s, ray);
    if !(disc < 0.0) {
      var near := (-Spheres.QuadB(s, ray) - sqrt(disc)) / (2.0 * Spheres.QuadA(ray));
      assert HitSphere(s.center, s.radius, ray, sqrt) == Ok(near);
    }
  }

  /** The window `World::hit` is asked for on every bounce: from `0.001`, to avoid
      re-hitting the surface just left, up to infinity. */
  const BounceMin: real := 0.001

  /** `get_ray_color(ray, world, depth)`, with `draws[k]` the draw of
      `random_unit_vector()` the diffuse bounce `k` levels down uses. Any vectors
      are accepted here; no lemma below needs them to be unit vectors. */
  function GetRayColor(world: Worlds.World, ray: Ray, depth: nat, draws: seq<Vec3>, sqrt: real -> real): (c: Color)
    requires depth <= |draws|
    ensures c.a == 1.0
    ensures depth == 0 ==> c == Black
    decreases depth
  {
    if depth == 0 then Black
    else
      match Worlds.Hit(world, ray, BounceMin, Infinity, sqrt)
      case Some(hit) =>
        var bounce := ScatterRay(hit.material, ray, hit, draws[0], sqrt);
        if bounce.ok then
          Attenuate(GetRayColor(world, bounce.scattered, depth - 1, draws[1..], sqrt), bounce.attenuation)
        else Black
      case None => RayColor(ray, sqrt)
  }

  /** Every albedo in the scene has its red, green and blue in [0, 1]. */
  ghost predicate AlbedosInUnit(world: Worlds.World) {
    forall i :: 0 <= i < |world.objects| ==> RgbInUnit(world.objects[i].material.albedo)
  }

  /** With albedos in [0, 1], every traced colour has red, green and blue in
      [0, 1], at any depth. */
  lemma {:induction false} GetRayColorInRange(world: Worlds.World, ray: Ray, depth: nat, draws: seq<Vec3>,
                                              sqrt: real -> real)
    requires IsSqrt(sqrt) && depth <= |draws| && AlbedosInUnit(world)
    ensures RgbInUnit(GetRayColor(world, ray, depth, draws, sqrt))
    decreases depth
  {
    if depth == 0 {
      return;
    }
    match Worlds.Hit(world, ray, BounceMin, Infinity, sqrt)
    case None =>
      SkyInRange(ray, sqrt);
    case Some(hit) =>
      Worlds.HitMaterialInScene(world, ray, BounceMin, Infinity, sqrt);
      var bounce := ScatterRay(hit.material, ray, hit, draws[0], sqrt);
      if bounce.ok {
        GetRayColorInRange(world, bounce.scattered, depth - 1, draws[1..], sqrt);
        AttenuateInUnit(GetRayColor(world, bounce.scattered, depth - 1, draws[1..], sqrt), bounce.attenuation);
      }
  }

  /** In an empty scene every ray shows the sky, at any depth but zero. */
  lemma EmptySceneShowsSky(ray: Ray, depth: nat, draws: seq<Vec3>, sqrt: real -> real)
    requires 0 < depth <= |draws|
    ensures GetRayColor(Worlds.NewWorld(), ray, depth, draws, sqrt) == RayColor(ray, sqrt)
  {
    Worlds.EmptyWorldMisses(ray, BounceMin, Infinity, sqrt);
  }

  /** With a single level of depth left, a ray that hits anything is black: either
      the surface absorbs it or the bounce runs out of depth. */
  lemma LastBounceIsBlack(world: Worlds.World, ray: Ray, draws: seq<Vec3>, sqrt: real -> real)
    requires 1 <= |draws|
    ensures Worlds.Hit(world, ray, BounceMin, Infinity, sqrt).Some? ==>
      var c := GetRayColor(world, ray, 1, draws, sqrt);
      c.r == 0.0 && c.g == 0.0 && c.b == 0.0
  {
    if Worlds.Hit(world, ray, BounceMin, Infinity, sqrt).Some? {
      var hit := Worlds.Hit(world, ray, BounceMin, Infinity, sqrt).value;
      var bounce := ScatterRay(hit.material, ray, hit, draws[0], sqrt);
      assert GetRayColor(world, bounce.scattered, 0, draws[1..], sqrt) == Black;
    }
  }

  /** A hit on a diffuse surface always bounces (every hit record carries a unit
      normal), so its colour is the albedo times the colour of the bounce, one
      level down. */
  lemma DiffuseHitAttenuates(world: Worlds.World, ray: Ray, depth: nat, draws: seq<Vec3>, sqrt: real -> real)
    requires IsSqrt(sqrt) && 0 < depth <= |draws|
    requires Worlds.Hit(world, ray, BounceMin, Infinity, sqrt).Some?
    requires Worlds.Hit(world, ray, BounceMin, Infinity, sqrt).value.material.Lambertian?
    ensures
      var hit := Worlds.Hit(world, ray, BounceMin, Infinity, sqrt).value;
      var bounce := ScatterRay(hit.material, ray, hit, draws[0], sqrt);
      && 0.0 < Dot(bounce.scattered.direction, hit.normal)
      && GetRayColor(world, ray, depth, draws, sqrt)
         == Attenuate(GetRayColor(world, bounce.scattered, depth - 1, draws[1..], sqrt), hit.material.albedo)
  {
    var hit := Worlds.Hit(world, ray, BounceMin, Infinity, sqrt).value;
    Worlds.HitNormalIsUnit(world, ray, BounceMin, Infinity, sqrt);
    LambertianScatters(hit.material.albedo, ray, hit, draws[0], sqrt);
  }

  /** Samples averaged per pixel, and the depth each is traced to. */
  const SamplesPerPixel: nat := 10
  const MaxDepth: nat := 50
  /** The far end of the window the unjittered centre ray is tested against. */
  const CentreMax: real := 1000.0

  /** A sub-pixel offset, each coordinate a `random()` draw from [0, 1). */
  datatype Jitter = Jitter(dx: real, dy: real)

  /** The ray through pixel `(x, y)` offset by `j`. */
  function PixelRay(camera: Camera, x: nat, y: nat, j: Jitter): Ray {
    FromCamera(camera, (x as real + j.dx) / 1599.0, (y as real + j.dy) / 899.0)
  }

  /** The colour of one jittered sample of pixel `(x, y)`. */
  function SampleColor(camera: Camera, world: Worlds.World, x: nat, y: nat, j: Jitter, draws: seq<Vec3>,
                       sqrt: real -> real): Color
    requires MaxDepth <= |draws|
  {
    GetRayColor(world, PixelRay(camera, x, y, j), MaxDepth, draws, sqrt)
  }

  /** The red, green and blue of `colors` added onto `acc`, one at a time; the
      alpha of `acc` is kept. */
  function AddRgb(acc: Color, colors: seq<Color>): (c: Color)
    ensures c.a == acc.a
    decreases |colors|
  {
    if |colors| == 0 then acc
    else AddRgb(Color(acc.r + colors[0].r, acc.g + colors[0].g, acc.b + colors[0].b, acc.a), colors[1..])
  }

  /** Adding colours with channels in [0, 1] onto a colour with channels in
      `[0, k]` gives channels in `[0, k + |colors|]`. */
  lemma {:induction false} AddRgbBounds(acc: Color, colors: seq<Color>, k: real)
    requires forall i :: 0 <= i < |colors| ==> RgbInUnit(colors[i])
    requires 0.0 <= acc.r && 0.0 <= acc.g && 0.0 <= acc.b
    requires acc.r <= k && acc.g <= k && acc.b <= k
    ensures var c := AddRgb(acc, colors);
      && 0.0 <= c.r && 0.0 <= c.g && 0.0 <= c.b
      && c.r <= k + |colors| as real && c.g <= k + |colors| as real && c.b <= k + |colors| as real
    decreases |colors|
  {
    if |colors| > 0 {
      var next := Color(acc.r + colors[0].r, acc.g + colors[0].g, acc.b + colors[0].b, acc.a);
      assert forall i :: 0 <= i < |colors[1..]| ==> colors[1..][i] == colors[i + 1];
      AddRgbBounds(next, colors[1..], k + 1.0);
    }
  }

  /** Adding the colours one at a time from the front is the same as adding all
      but the last and then the last. */
  lemma {:induction false} AddRgbLast(acc: Color, colors: seq<Color>)
    requires |colors| > 0
    ensures var front := AddRgb(acc, colors[..|colors| - 1]);
      var last := colors[|colors| - 1];
      AddRgb(acc, colors) == Color(front.r + last.r, front.g + last.g, front.b + last.b, acc.a)
    decreases |colors|
  {
    if |colors| > 1 {
      var next := Color(acc.r + colors[0].r, acc.g + colors[0].g, acc.b + colors[0].b, acc.a);
      AddRgbLast(next, colors[1..]);
      assert colors[1..][..|colors| - 2] == colors[..|colors| - 1][1..];
    }
  }

  /** The red, green and blue totals of `colors`, summed from the last colour
      back; the reference the running sum of `render_update` is held to. */
  function RgbTotal(colors: seq<Color>): (t: Color)
    ensures t.a == 1.0
    decreases |colors|
  {
    if |colors| == 0 then Black
    else
      var front := RgbTotal(colors[..|colors| - 1]);
      var last := colors[|colors| - 1];
      Color(front.r + last.r, front.g + last.g, front.b + last.b, 1.0)
  }

  /** The running sum adds the totals of the colours onto the start colour and
      keeps its alpha. */
  lemma {:induction false} AddRgbIsTotal(acc: Color, colors: seq<Color>)
    ensures var c := AddRgb(acc, colors);
      var t := RgbTotal(colors);
      c.r == acc.r + t.r && c.g == acc.g + t.g && c.b == acc.b + t.b && c.a == acc.a
    decreases |colors|
  {
    if |colors| > 0 {
      AddRgbLast(acc, colors);
      AddRgbIsTotal(acc, colors[..|colors| - 1]);
    }
  }

  /** When every colour has the red, green and blue of `k`, the totals are
      `|colors|` times those of `k`. */
  lemma {:induction false} RgbTotalConstant(colors: seq<Color>, k: Color)
    requires forall i :: 0 <= i < |colors| ==> colors[i].r == k.r && colors[i].g == k.g && colors[i].b == k.b
    ensures var t := RgbTotal(colors);
      t.r == |colors| as real * k.r && t.g == |colors| as real * k.g && t.b == |colors| as real * k.b
    decreases |colors|
  {
    if |colors| > 0 {
      var front := colors[..|colors| - 1];
      assert forall i :: 0 <= i < |front| ==> front[i] == colors[i];
      RgbTotalConstant(front, k);
      var n := |front| as real;
      assert n * k.r + k.r == (n + 1.0) * k.r;
      assert n * k.g + k.g == (n + 1.0) * k.g;
      assert n * k.b + k.b == (n + 1.0) * k.b;
    }
  }

  /** The samples of pixel `(x, y)`, one per jitter and draw stream. */
  function SampleColors(camera: Camera, world: Worlds.World, x: nat, y: nat, jitters: seq<Jitter>,
                        draws: seq<seq<Vec3>>, sqrt: real -> real): (colors: seq<Color>)
    requires |jitters| == |draws| && forall i :: 0 <= i < |draws| ==> MaxDepth <= |draws[i]|
    ensures |colors| == |jitters|
    ensures forall i :: 0 <= i < |colors| ==> colors[i] == SampleColor(camera, world, x, y, jitters[i], draws[i], sqrt)
    decreases |jitters|
  {
    if |jitters| == 0 then []
    else [SampleColor(camera, world, x, y, jitters[0], draws[0], sqrt)]
         + SampleColors(camera, world, x, y, jitters[1..], draws[1..], sqrt)
  }

  /** The per-pixel rule of `render_update` for pixel `(x, y)`: when the
      unjittered ray through the pixel misses every sphere in `(0.001, 1000)` the
      pixel is that ray's sky colour; otherwise it is the average of the red,
      green and blue of ten jittered samples traced to depth 50, opaque. */
  function PixelColor(camera: Camera, world: Worlds.World, x: nat, y: nat, jitters: seq<Jitter>,
                      draws: seq<seq<Vec3>>, sqrt: real -> real): (c: Color)
    requires |jitters| == SamplesPerPixel && |draws| == SamplesPerPixel
    requires forall i :: 0 <= i < |draws| ==> MaxDepth <= |draws[i]|
    ensures c.a == 1.0
    ensures var centre := FromCamera(camera, x as real / 1599.0, y as real / 899.0);
      Worlds.Hit(world, centre, BounceMin, Finite(CentreMax), sqrt).None? ==> c == RayColor(centre, sqrt)
  {
    var centre := FromCamera(camera, x as real / 1599.0, y as real / 899.0);
    if Worlds.Hit(world, centre, BounceMin, Finite(CentreMax), sqrt).None? then RayColor(centre, sqrt)
    else
      var sum := AddRgb(Black, SampleColors(camera, world, x, y, jitters, draws, sqrt));
      Color(sum.r / 10.0, sum.g / 10.0, sum.b / 10.0, sum.a)
  }

  /** Every pixel is opaque and, with albedos in [0, 1], has red, green and blue
      in [0, 1]. */
  lemma PixelInRange(camera: Camera, world: Worlds.World, x: nat, y: nat, jitters: seq<Jitter>,
                     draws: seq<seq<Vec3>>, sqrt: real -> real)
    requires IsSqrt(sqrt) && AlbedosInUnit(world)
    requires |jitters| == SamplesPerPixel && |draws| == SamplesPerPixel
    requires forall i :: 0 <= i < |draws| ==> MaxDepth <= |draws[i]|
    ensures RgbInUnit(PixelColor(camera, world, x, y, jitters, draws, sqrt))
    ensures PixelColor(camera, world, x, y, jitters, draws, sqrt).a == 1.0
  {
    var centre := FromCamera(camera, x as real / 1599.0, y as real / 899.0);
    SkyInRange(centre, sqrt);
    var colors := SampleColors(camera, world, x, y, jitters, draws, sqrt);
    forall i | 0 <= i < |colors|
      ensures RgbInUnit(colors[i])
    {
      GetRayColorInRange(world, PixelRay(camera, x, y, jitters[i]), MaxDepth, draws[i], sqrt);
    }
    AddRgbBounds(Black, colors, 0.0);
  }

  /** In an empty scene a pixel is the sky colour of the unjittered ray through
      it. */
  lemma EmptyScenePixel(camera: Camera, x: nat, y: nat, jitters: seq<Jitter>, draws: seq<seq<Vec3>>,
                        sqrt: real -> real)
    requires |jitters| == SamplesPerPixel && |draws| == SamplesPerPixel
    requires forall i :: 0 <= i < |draws| ==> MaxDepth <= |draws[i]|
    ensures PixelColor(camera, Worlds.NewWorld(), x, y, jitters, draws, sqrt)
         == RayColor(FromCamera(camera, x as real / 1599.0, y as real / 899.0), sqrt)
  {
    var centre := FromCamera(camera, x as real / 1599.0, y as real / 899.0);
    Worlds.EmptyWorldMisses(centre, BounceMin, Finite(CentreMax), sqrt);
  }

  /** When the unjittered ray through the pixel hits something in `(0.001, 1000)`,
      the pixel's red, green and blue are the totals of its ten samples divided
      by ten, and it is opaque. */
  lemma PixelIsAverage(camera: Camera, world: Worlds.World, x: nat, y: nat, jitters: seq<Jitter>,
                       draws: seq<seq<Vec3>>, sqrt: real -> real)
    requires |jitters| == SamplesPerPixel && |draws| == SamplesPerPixel
    requires forall i :: 0 <= i < |draws| ==> MaxDepth <= |draws[i]|
    requires Worlds.Hit(world, FromCamera(camera, x as real / 1599.0, y as real / 899.0), BounceMin,
                        Finite(CentreMax), sqrt).Some?
    ensures var t := RgbTotal(SampleColors(camera, world, x, y, jitters, draws, sqrt));
      PixelColor(camera, world, x, y, jitters, draws, sqrt) == Color(t.r / 10.0, t.g / 10.0, t.b / 10.0, 1.0)
  {
    AddRgbIsTotal(Black, SampleColors(camera, world, x, y, jitters, draws, sqrt));
  }

  /** When the unjittered ray hits and all ten samples share the red, green and
      blue of `k`, the pixel is `k` made opaque. */
  lemma PixelOfEqualSamples(camera: Camera, world: Worlds.World, x: nat, y: nat, jitters: seq<Jitter>,
                            draws: seq<seq<Vec3>>, sqrt: real -> real, k: Color)
    requires |jitters| == SamplesPerPixel && |draws| == SamplesPerPixel
    requires forall i :: 0 <= i < |draws| ==> MaxDepth <= |draws[i]|
    requires Worlds.Hit(world, FromCamera(camera, x as real / 1599.0, y as real / 899.0), BounceMin,
                        Finite(CentreMax), sqrt).Some?
    requires forall i :: 0 <= i < SamplesPerPixel ==>
      var s := SampleColor(camera, world, x, y, jitters[i], draws[i], sqrt);
      s.r == k.r && s.g == k.g && s.b == k.b
    ensures PixelColor(camera, world, x, y, jitters, draws, sqrt) == Color(k.r, k.g, k.b, 1.0)
  {
    var colors := SampleColors(camera, world, x, y, jitters, draws, sqrt);
    PixelIsAverage(camera, world, x, y, jitters, draws, sqrt);
    RgbTotalConstant(colors, k);
  }

  /** For a camera built by `Camera::new(o, ar, f)`, the first pixel's ray looks at
      the viewport's lower-left corner and the last pixel's at its upper-right
      corner. */
  lemma ScreenCorners(origin: Vec3, aspectRatio: real, focalLength: real)
    ensures FromCamera(NewCamera(origin, aspectRatio, focalLength), 0 as real / 1599.0, 0 as real / 899.0).direction
         == Vec3(-aspectRatio, -1.0, -focalLength)
    ensures FromCamera(NewCamera(origin, aspectRatio, focalLength), 1599 as real / 1599.0, 899 as real / 899.0).direction
         == Vec3(aspectRatio, 1.0, -focalLength)
  {
    FromCameraDirection(origin, aspectRatio, focalLength, 0.0, 0.0);
    FromCameraDirection(origin, aspectRatio, focalLength, 1.0, 1.0);
  }
}

=== FILE: vectors.dfy ===
/** Three-component vectors over the reals, standing in for the f32 `Vec3` of the
    maths library the renderer is built on; only the operations it uses appear. */
module Vectors {
  import opened RealArith

  datatype Vec3 = Vec3(x: real, y: real, z: real)

  /** `Vec3::default()`. */
  const Zero := Vec3(0.0, 0.0, 0.0)

  function Add(a: Vec3, b: Vec3): Vec3 {
    Vec3(a.x + b.x, a.y + b.y, a.z + b.z)
  }

  function Sub(a: Vec3, b: Vec3): Vec3 {
    Vec3(a.x - b.x, a.y - b.y, a.z - b.z)
  }

  function Neg(v: Vec3): Vec3 {
    Vec3(-v.x, -v.y, -v.z)
  }

  /** `v * k` (and `k * v`): every component multiplied by the scalar. */
  function Scale(v: Vec3, k: real): Vec3 {
    Vec3(v.x * k, v.y * k, v.z * k)
  }

  /** `v / k`: every component divided by the scalar. */
  function Div(v: Vec3, k: real): Vec3
    requires k != 0.0
  {
    Vec3(v.x / k, v.y / k, v.z / k)
  }

  function Dot(a: Vec3, b: Vec3): real {
    a.x * b.x + a.y * b.y + a.z * b.z
  }

  /** The square-root primitive is a parameter of the model; this predicate says
      that it is the exact square root on the non-negative reals. */
  ghost predicate IsSqrt(sqrt: real -> real) {
    forall x :: 0.0 <= x ==> 0.0 <= sqrt(x) && sqrt(x) * sqrt(x) == x
  }

  function Length(v: Vec3, sqrt: real -> real): real {
    sqrt(Dot(v, v))
  }

  /** `v.normalize()`, i.e. `v * (1 / length)`. The maths library yields NaN
      components for the zero vector; the model returns the vector unchanged. */
  function Normalize(v: Vec3, sqrt: real -> real): Vec3 {
    var len := Length(v, sqrt);
    if len == 0.0 then v else Scale(v, 1.0 / len)
  }

  lemma DotSelfNonNegative(v: Vec3)
    ensures 0.0 <= Dot(v, v)
  {
    SquareNonNegative(v.x);
    SquareNonNegative(v.y);
    SquareNonNegative(v.z);
  }

  lemma DotSymmetric(a: Vec3, b: Vec3)
    ensures Dot(a, b) == Dot(b, a)
  {
  }

  lemma DotScaleLeft(v: Vec3, k: real, w: Vec3)
    ensures Dot(Scale(v, k), w) == k * Dot(v, w)
  {
    assert v.x * k * w.x == k * (v.x * w.x);
    assert v.y * k * w.y == k * (v.y * w.y);
    assert v.z * k * w.z == k * (v.z * w.z);
  }

  lemma DotNegLeft(v: Vec3, w: Vec3)
    ensures Dot(Neg(v), w) == -Dot(v, w)
  {
  }

  lemma DotAddLeft(a: Vec3, b: Vec3, w: Vec3)
    ensures Dot(Add(a, b), w) == Dot(a, w) + Dot(b, w)
  {
  }

  lemma DotSubLeft(a: Vec3, b: Vec3, w: Vec3)
    ensures Dot(Sub(a, b), w) == Dot(a, w) - Dot(b, w)
  {
  }

  /** A vector of non-zero length normalises to a unit vector that is a positive
      multiple of it. */
  lemma NormalizeIsUnit(v: Vec3, sqrt: real -> real)
    requires IsSqrt(sqrt) && Length(v, sqrt) != 0.0
    ensures Dot(Normalize(v, sqrt), Normalize(v, sqrt)) == 1.0
    ensures 0.0 < Length(v, sqrt)
    ensures Normalize(v, sqrt) == Scale(v, 1.0 / Length(v, sqrt))
  {
    DotSelfNonNegative(v);
    var q := Dot(v, v);
    var len := sqrt(q);
    var k := 1.0 / len;
    DivideIsMultiply(1.0, len);
    var n := Scale(v, k);
    DotScaleLeft(v, k, n);
    DotScaleLeft(v, k, v);
    DotSymmetric(v, n);
    assert Dot(n, n) == k * k * q;
    ReciprocalSquare(k, len, q);
  }

  /** Normalising never lengthens a vector beyond unit length; the zero vector
      stays zero. */
  lemma NormalizeBounded(v: Vec3, sqrt: real -> real)
    requires IsSqrt(sqrt)
    ensures Dot(Normalize(v, sqrt), Normalize(v, sqrt)) <= 1.0
  {
    DotSelfNonNegative(v);
    if Length(v, sqrt) != 0.0 {
      NormalizeIsUnit(v, sqrt);
    } else {
      assert Dot(v, v) == Length(v, sqrt) * Length(v, sqrt);
    }
  }

  /** Normalising keeps the side a vector lies on with respect to any other
      vector: the sign of the dot product is unchanged. */
  lemma NormalizeKeepsSide(v: Vec3, w: Vec3, sqrt: real -> real)
    requires IsSqrt(sqrt)
    ensures Dot(Normalize(v, sqrt), w) < 0.0 <==> Dot(v, w) < 0.0
    ensures 0.0 < Dot(Normalize(v, sqrt), w) <==> 0.0 < Dot(v, w)
  {
    if Length(v, sqrt) != 0.0 {
      NormalizeIsUnit(v, sqrt);
      var k := 1.0 / Length(v, sqrt);
      ReciprocalPositive(Length(v, sqrt));
      DotScaleLeft(v, k, w);
      PositiveMultiple(k, Dot(v, w));
    }
  }

  /** Every component of a vector of length at most 1 lies in [-1, 1]. */
  lemma ShortComponentsBounded(u: Vec3)
    requires Dot(u, u) <= 1.0
    ensures -1.0 <= u.x <= 1.0 && -1.0 <= u.y <= 1.0 && -1.0 <= u.z <= 1.0
  {
    SquaresAtMostOne(u.x, u.y, u.z, Dot(u, u));
  }
}

=== FILE: world.dfy ===
/** The scene: an ordered list of spheres, and the closest-hit search over it. */
module Worlds {
  import opened Wrappers
  import opened Vectors
  import opened Colors
  import opened MaterialKinds
  import opened Rays
  import opened HitInfos
  import Spheres

  /** `World`: the objects in the order they were added. Spheres are the only
      kind of object the renderer has. */
  datatype World = World(objects: seq<Spheres.Sphere>)

  /** `World::new`: no objects. */
  function NewWorld(): (w: World)
    ensures |w.objects| == 0
  {
    World([])
  }

  /** `World::add`: the object goes at the end; the earlier objects keep their
      places. */
  function AddObject(w: World, s: Spheres.Sphere): (r: World)
    ensures |r.objects| == |w.objects| + 1 && r.objects[|w.objects|] == s
    ensures forall i :: 0 <= i < |w.objects| ==> r.objects[i] == w.objects[i]
  {
    World(w.objects + [s])
  }

  /** The record `World::hit` starts from: not a hit, at `t = 0`, black Lambertian. */
  const Placeholder: HitInfo := NewHitInfo(false, 0.0, Zero, Zero, Lambertian(Black))

  /** The loop of `World::hit` over `objects`, with `closest` the current
      `closest_so_far` and `current` the record found so far: each object is asked
      for a hit below `closest`, and a hit it reports narrows the window. The
      result is the starting record or a hit inside the window. */
  function Scan(objects: seq<Spheres.Sphere>, ray: Ray, tMin: real, closest: Bound, current: HitInfo,
                sqrt: real -> real): (r: HitInfo)
    ensures r == current || (r.hit && InWindow(r.t, tMin, closest))
    decreases |objects|
  {
    if |objects| == 0 then current
    else
      match Spheres.Hit(objects[0], ray, tMin, closest, sqrt)
      case Some(info) => Scan(objects[1..], ray, tMin, Finite(info.t), info, sqrt)
      case None => Scan(objects[1..], ray, tMin, closest, current, sqrt)
  }

  /** `World::hit`: the record left by the loop, if its `hit` flag is set. */
  function Hit(w: World, ray: Ray, tMin: real, tMax: Bound, sqrt: real -> real): (r: Option<HitInfo>)
    ensures r.Some? ==> r.value.hit && InWindow(r.value.t, tMin, tMax)
    ensures |w.objects| == 0 ==> r.None?
  {
    var h := Scan(w.objects, ray, tMin, tMax, Placeholder, sqrt);
    if h.hit then Some(h) else None
  }

  /** What each object, asked on its own, reports for the ray in the window, in
      the order of the objects. */
  function Hits(objects: seq<Spheres.Sphere>, ray: Ray, tMin: real, tMax: Bound, sqrt: real -> real)
    : (hits: seq<Option<HitInfo>>)
    ensures |hits| == |objects|
    ensures forall j :: 0 <= j < |objects| ==> hits[j] == Spheres.Hit(objects[j], ray, tMin, tMax, sqrt)
    decreases |objects|
  {
    if |objects| == 0 then []
    else [Spheres.Hit(objects[0], ray, tMin, tMax, sqrt)] + Hits(objects[1..], ray, tMin, tMax, sqrt)
  }

  /** Nobody reports a hit. */
  ghost predicate NoneIn(hits: seq<Option<HitInfo>>) {
    forall j :: 0 <= j < |hits| ==> hits[j].None?
  }

  /** `h` is the hit reported at position `i`; every earlier report is a miss or
      strictly farther away, and every later one a miss or no nearer. */
  ghost predicate FirstNearestIn(hits: seq<Option<HitInfo>>, i: int, h: HitInfo) {
    && 0 <= i < |hits|
    && hits[i] == Some(h)
    && (forall j :: 0 <= j < i && hits[j].Some? ==> h.t < hits[j].value.t)
    && (forall j :: i < j < |hits| && hits[j].Some? ==> h.t <= hits[j].value.t)
  }

  /** The reports `narrow` are the reports `wide` once the window is closed at
      `bound`: misses stay misses, hits below `bound` are kept, the others lost. */
  ghost predicate NarrowedTo(wide: seq<Option<HitInfo>>, narrow: seq<Option<HitInfo>>, bound: real) {
    && |wide| == |narrow|
    && forall j :: 0 <= j < |wide| ==>
         && (wide[j].None? ==> narrow[j].None?)
         && (wide[j].Some? && wide[j].value.t < bound ==> narrow[j] == wide[j])
         && (wide[j].Some? && bound <= wide[j].value.t ==> narrow[j].None?)
  }

  /** A miss in front does not change who is first among the nearest. */
  lemma ShiftPastMiss(hits: seq<Option<HitInfo>>, i: int, h: HitInfo)
    requires |hits| > 0 && hits[0].None?
    requires FirstNearestIn(hits[1..], i, h)
    ensures FirstNearestIn(hits, i + 1, h)
  {
    assert forall j :: 0 < j < |hits| ==> hits[j] == hits[1..][j - 1];
  }

  /** A hit in front narrows the window for the rest: if nothing after it hits in
      the narrowed window it is first among the nearest, and otherwise the first
      nearest of the narrowed rest is. */
  lemma ShiftPastHit(hits: seq<Option<HitInfo>>, narrow: seq<Option<HitInfo>>, info: HitInfo)
    requires |hits| > 0 && hits[0] == Some(info)
    requires NarrowedTo(hits[1..], narrow, info.t)
    ensures NoneIn(narrow) ==> FirstNearestIn(hits, 0, info)
    ensures forall i, h :: FirstNearestIn(narrow, i, h) ==> FirstNearestIn(hits, i + 1, h)
  {
    var rest := hits[1..];
    assert forall j :: 0 < j < |hits| ==> hits[j] == rest[j - 1];
    if NoneIn(narrow) {
      forall j | 0 < j < |hits| && hits[j].Some?
        ensures info.t <= hits[j].value.t
      {
        assert narrow[j - 1].None?;
      }
    }
    forall i, h | FirstNearestIn(narrow, i, h)
      ensures FirstNearestIn(hits, i + 1, h)
    {
      assert rest[i] == Some(h);
      forall j | 0 <= j < i + 1 && hits[j].Some?
        ensures h.t < hits[j].value.t
      {
        if j > 0 && rest[j - 1].value.t < info.t {
          assert narrow[j - 1] == rest[j - 1];
        }
      }
      forall j | i + 1 < j < |hits| && hits[j].Some?
        ensures h.t <= hits[j].value.t
      {
        if rest[j - 1].value.t < info.t {
          assert narrow[j - 1] == rest[j - 1];
        }
      }
    }
  }

  /** Closing the window at `bound` narrows every object's report as
      `Spheres.Narrowed` says. */
  lemma NarrowedHits(objects: seq<Spheres.Sphere>, ray: Ray, tMin: real, closest: Bound, bound: real,
                     sqrt: real -> real)
    requires IsSqrt(sqrt) && Below(bound, closest)
    ensures NarrowedTo(Hits(objects, ray, tMin, closest, sqrt), Hits(objects, ray, tMin, Finite(bound), sqrt), bound)
  {
    forall j | 0 <= j < |objects| {
      Spheres.Narrowed(objects[j], ray, tMin, closest, Finite(bound), sqrt);
    }
  }

  /** The loop invariant of `World::hit`: the loop keeps the record it started
      with when no object hits in the window, and otherwise ends with the hit of
      the first object among the nearest. */
  lemma {:induction false} ScanFindsFirstNearest(objects: seq<Spheres.Sphere>, ray: Ray, tMin: real,
                                                 closest: Bound, current: HitInfo, sqrt: real -> real)
    requires IsSqrt(sqrt)
    ensures NoneIn(Hits(objects, ray, tMin, closest, sqrt)) ==>
      Scan(objects, ray, tMin, closest, current, sqrt) == current
    ensures !NoneIn(Hits(objects, ray, tMin, closest, sqrt)) ==>
      exists i :: FirstNearestIn(Hits(objects, ray, tMin, closest, sqrt), i,
                                 Scan(objects, ray, tMin, closest, current, sqrt))
    decreases |objects|
  {
    if |objects| == 0 {
      return;
    }
    var rest := objects[1..];
    var hits := Hits(objects, ray, tMin, closest, sqrt);
    var result := Scan(objects, ray, tMin, closest, current, sqrt);
    assert hits[1..] == Hits(rest, ray, tMin, closest, sqrt);
    match Spheres.Hit(objects[0], ray, tMin, closest, sqrt)
    case None =>
      ScanFindsFirstNearest(rest, ray, tMin, closest, current, sqrt);
      if !NoneIn(hits[1..]) {
        var i :| FirstNearestIn(hits[1..], i, result);
        ShiftPastMiss(hits, i, result);
      }
    case Some(info) =>
      var narrowed := Finite(info.t);
      var narrow := Hits(rest, ray, tMin, narrowed, sqrt);
      ScanFindsFirstNearest(rest, ray, tMin, narrowed, info, sqrt);
      NarrowedHits(rest, ray, tMin, closest, info.t, sqrt);
      ShiftPastHit(hits, narrow, info);
  }

  /** `World::hit` reports a hit exactly when some object, asked on its own,
      reports one in the window; the hit it reports is that of the first object
      among the nearest, so it lies in the window and ties go to the earlier
      object. */
  lemma HitIsFirstNearest(w: World, ray: Ray, tMin: real, tMax: Bound, sqrt: real -> real)
    requires IsSqrt(sqrt)
    ensures Hit(w, ray, tMin, tMax, sqrt).None? <==> NoneIn(Hits(w.objects, ray, tMin, tMax, sqrt))
    ensures Hit(w, ray, tMin, tMax, sqrt).Some? ==>
      && InWindow(Hit(w, ray, tMin, tMax, sqrt).value.t, tMin, tMax)
      && Hit(w, ray, tMin, tMax, sqrt).value.hit
      && exists i :: FirstNearestIn(Hits(w.objects, ray, tMin, tMax, sqrt), i, Hit(w, ray, tMin, tMax, sqrt).value)
  {
    var hits := Hits(w.objects, ray, tMin, tMax, sqrt);
    ScanFindsFirstNearest(w.objects, ray, tMin, tMax, Placeholder, sqrt);
    if !NoneIn(hits) {
      var h := Scan(w.objects, ray, tMin, tMax, Placeholder, sqrt);
      var i :| FirstNearestIn(hits, i, h);
      assert Spheres.Hit(w.objects[i], ray, tMin, tMax, sqrt) == Some(h);
    }
  }

  /** A reported hit carries the material of one of the world's objects. */
  lemma HitMaterialInScene(w: World, ray: Ray, tMin: real, tMax: Bound, sqrt: real -> real)
    requires IsSqrt(sqrt)
    ensures Hit(w, ray, tMin, tMax, sqrt).Some? ==>
      exists i :: 0 <= i < |w.objects| && Hit(w, ray, tMin, tMax, sqrt).value.material == w.objects[i].material
  {
    HitIsFirstNearest(w, ray, tMin, tMax, sqrt);
    if Hit(w, ray, tMin, tMax, sqrt).Some? {
      var h := Hit(w, ray, tMin, tMax, sqrt).value;
      var i :| FirstNearestIn(Hits(w.objects, ray, tMin, tMax, sqrt), i, h);
      assert Spheres.Hit(w.objects[i], ray, tMin, tMax, sqrt) == Some(h);
    }
  }

  /** A reported hit lies on the surface of one of the world's objects and carries
      a unit normal. */
  lemma HitNormalIsUnit(w: World, ray: Ray, tMin: real, tMax: Bound, sqrt: real -> real)
    requires IsSqrt(sqrt)
    ensures Hit(w, ray, tMin, tMax, sqrt).Some? ==>
      && Dot(Hit(w, ray, tMin, tMax, sqrt).value.normal, Hit(w, ray, tMin, tMax, sqrt).value.normal) == 1.0
      && exists i :: 0 <= i < |w.objects| && Spheres.OnSurface(w.objects[i], Hit(w, ray, tMin, tMax, sqrt).value.p)
  {
    HitIsFirstNearest(w, ray, tMin, tMax, sqrt);
    if Hit(w, ray, tMin, tMax, sqrt).Some? {
      var h := Hit(w, ray, tMin, tMax, sqrt).value;
      var i :| FirstNearestIn(Hits(w.objects, ray, tMin, tMax, sqrt), i, h);
      assert Spheres.Hit(w.objects[i], ray, tMin, tMax, sqrt) == Some(h);
      Spheres.HitOnSurface(w.objects[i], ray, tMin, tMax, sqrt);
    }
  }

  /** An empty world is never hit. */
  lemma EmptyWorldMisses(ray: Ray, tMin: real, tMax: Bound, sqrt: real -> real)
    ensures Hit(NewWorld(), ray, tMin, tMax, sqrt).None?
  {
  }

  /** One object's report, for a ray with a non-zero direction: a miss means no
      point of its surface lies in the window, a hit is the nearest such point. */
  lemma ObjectReport(s: Spheres.Sphere, ray: Ray, tMin: real, tMax: Bound, sqrt: real -> real, t: real)
    requires IsSqrt(sqrt) && Spheres.QuadA(ray) != 0.0
    requires InWindow(t, tMin, tMax) && Spheres.OnSurface(s, At(ray, t))
    ensures Spheres.Hit(s, ray, tMin, tMax, sqrt).Some? && Spheres.Hit(s, ray, tMin, tMax, sqrt).value.t <= t
  {
    Spheres.HitIffRootInWindow(s, ray, tMin, tMax, sqrt);
    Spheres.HitIsNearest(s, ray, tMin, tMax, sqrt);
  }

  /** For a ray with a non-zero direction: if the ray meets the surface of any
      sphere at some `t` in the window, `World::hit` reports a hit, and one no
      farther than `t`. */
  lemma HitIsNearestSurfacePoint(w: World, ray: Ray, tMin: real, tMax: Bound, sqrt: real -> real, j: int, t: real)
    requires IsSqrt(sqrt) && Spheres.QuadA(ray) != 0.0
    requires 0 <= j < |w.objects| && InWindow(t, tMin, tMax) && Spheres.OnSurface(w.objects[j], At(ray, t))
    ensures Hit(w, ray, tMin, tMax, sqrt).Some?
    ensures Hit(w, ray, tMin, tMax, sqrt).value.t <= t
  {
    HitIsFirstNearest(w, ray, tMin, tMax, sqrt);
    var hits := Hits(w.objects, ray, tMin, tMax, sqrt);
    ObjectReport(w.objects[j], ray, tMin, tMax, sqrt, t);
    assert hits[j].Some? && hits[j].value.t <= t;
    var h := Hit(w, ray, tMin, tMax, sqrt).value;
    var i :| FirstNearestIn(hits, i, h);
    FirstNearestIsLeast(hits, i, h, j);
  }

  /** The first nearest report is no farther than any other report. */
  lemma FirstNearestIsLeast(hits: seq<Option<HitInfo>>, i: int, h: HitInfo, j: int)
    requires FirstNearestIn(hits, i, h) && 0 <= j < |hits| && hits[j].Some?
    ensures h.t <= hits[j].value.t
  {
    if j < i {
      assert h.t < hits[j].value.t;
    } else if i < j {
      assert h.t <= hits[j].value.t;
    }
  }
}

=== FILE: wrappers.dfy ===
/** Failure-carrying result types shared by the rest of the model. */
module Wrappers {

  /** Rust's `Option<T>`. */
  datatype Option<+T> = None | Some(value: T)

  /** Rust's `Result<T, E>`. */
  datatype Result<+T, +E> = Ok(value: T) | Err(error: E)
}
